=== FILE: README.md ===
# Booru Sync: a Dafny model of the reconciliation engine

Booru Sync is a userscript. It copies a user's faves and upvotes from one
image board ("booru") to others. The boards come in two site families:
Philomena (Derpibooru, Ponybooru, Ponerpics) and Booru-on-Rails (Twibooru).
For every destination, a sync does four things:

- it pages through the destination's own faves and upvotes;
- it drops the source images the destination already holds, compared by
  SHA-512 hash;
- it looks up each remaining image on the destination. The lookup runs a hash
  search, then client-side hashing with a second hash search, then a reverse
  image search;
- it applies the interaction, or reports a possible match, a timeout or a
  miss.

This project models that engine as pure Dafny functions over immutable data.
Everything outside is passed in as a value:

- what a site answers to a search, a reverse search or a download;
- the SHA-512 digest;
- the current time;
- the CSRF token found on a site's front page.

Modules, one per file:

- `Common`: option, result and JavaScript slot types (`null` / `undefined`).
- `Http`: `handleResponse`.
- `Text`: split, join, trim and first-occurrence replace; decimal digits.
- `Urls`: `makeAbsolute`, the SVG download URL rewrite, `makeQueryString`.
- `Hex`: the byte-to-hex conversion of a digest.
- `HashStore`: `getClientHash` / `setClientHash`.
- `Images`: image records, `transformImageResponse` of both families, and
  `hashCompare`.
- `Search`: `searchByHash`, the Booru-on-Rails `searchByApi`, and the Philomena
  `searchByImage` candidate selection.
- `Matching`: `findImage` of both families.
- `Paging`: `getInteractions`.
- `Token`: `getToken`.
- `Reconcile`: `sync`.

Modelling choices:

- **Hash slots.** They are `Js<string>`: a value, `null` or `undefined`.
  - JavaScript's `==` makes the two absent values equal, and `hashCompare`
    inherits that.
  - String concatenation writes them as `null` / `undefined` into the hash
    query.
- **Ids.** They are natural numbers. An id is "found" when it is present and
  not 0, which is JavaScript truthiness.
- **The cancellation flag `ok`.** It only ever changes from true to false.
  Each loop therefore takes the number of `ok` checks that still read true.
  Both `getInteractions` and `sync` check `ok` at the top of every page and
  every queue item.
- **Errors.** An error the script does not catch makes an operation end in
  `Err` (or `Aborted` / `Threw` / `Failed`). Such errors are:
  - the first hash search of `findImage`;
  - the Booru-on-Rails location lookup;
  - a failed search page;
  - `getToken` on a page without a token;
  - an interaction request that throws.
  
  A caught error is modelled on the path the source takes.

Behaviour of the code worth knowing when reading the model:

- **The first `searchByHash` error is fatal.** It is not caught, so it
  rejects the whole `sync` of that destination. A Booru-on-Rails location
  lookup error does the same.
- **The hash store** is an unbounded nested map from host to image id. It has
  no capacity bound, no expiry and no versioning, and its timestamps are
  written but never read.
- **Rate limits.** There is no rate-limit back-off: every request is sent
  once, and a failed one is handled as above.
- **Token age.** The token's age is computed in minutes. The source's comment
  says hours, but the arithmetic gives minutes, so a token is reused for at
  most six minutes.

## Model

| member | source | states |
|---|---|---|
| Http.HandleResponse | booru-sync.user.js:335-340 | a reply becomes a value exactly when it loaded with status 200, and that value is its body; otherwise the reply is thrown, and the thrown value is the timeout object exactly when the request timed out |
| Text.JoinSplit | booru-sync.user.js:606 | joining the pieces of `split(c)` with `c` gives back the original string |
| Text.SplitJoin | booru-sync.user.js:606 | splitting a `c`-joined list of `c`-free pieces gives back the pieces |
| Text.Trim | booru-sync.user.js:72 | the result is a contiguous slice of the input with no white space at either end |
| Text.TrimIdempotent | booru-sync.user.js:72 | trimming twice is trimming once |
| Text.ReplaceFirst | booru-sync.user.js:311 | without an occurrence the string is unchanged; otherwise only the first occurrence of the pattern is replaced |
| Text.DecimalRoundTrip | booru-sync.user.js:565 | the decimal text of an id written into a template literal reads back as that id |
| Urls.MakeAbsolute | booru-sync.user.js:1098-1100 | the result always starts with `//`, `http://` or `https://`; such a path is returned unchanged, any other path is prefixed with `https://` and the host |
| Urls.MakeAbsoluteIdempotent | booru-sync.user.js:1098-1100 | making an absolute URL absolute again changes nothing |
| Urls.ExtensionStart | booru-sync.user.js:311 | `/\.\w+$/` matches at one position at most, and this is it: the dot followed only by word characters up to the end |
| Urls.SvgExtension | booru-sync.user.js:311 | a trailing `.ext` is replaced by `.svg`; a URL without one is unchanged |
| Urls.DownloadUrl | booru-sync.user.js:308-311 | non-SVG files download from their file URL unchanged |
| Urls.SvgDownloadUrl | booru-sync.user.js:309-311 | SVG files download from the URL with its first `/view/` turned into `/download/` and the trailing extension of the result turned into `.svg`; a URL without `/view/` only has its extension rewritten |
| Urls.SvgDownloadUrlShape | booru-sync.user.js:309-311 | the rewritten SVG URL keeps everything before the first `/view/`, followed by `/download/`, and ends in `.svg` whenever the rewritten URL had an extension |
| Urls.MakeQueryString | booru-sync.user.js:1077-1082 | the query string starts with `?` |
| Urls.QueryStringRoundTrip | booru-sync.user.js:1077-1082 | for keys without `=` and keys and values without `&`, splitting the query string on `&` and each entry on its first `=` gives back the entries in order |
| Hex.DigitValue | booru-sync.user.js:325-327 | a character has a hex value exactly when it is a lower-case hex digit, and that value is the digit's index |
| Hex.ByteHex | booru-sync.user.js:325-327 | `b.toString(16).padStart(2, '0')` is two hex digits whose value is `b` |
| Hex.ToHex | booru-sync.user.js:322-327 | the hex text of a digest has two lower-case hex digits per byte |
| Hex.HexRoundTrip | booru-sync.user.js:322-327 | decoding the hex text gives back the digest bytes |
| Hex.HexInjective | booru-sync.user.js:322-327 | different digests have different hex texts |
| HashStore.GetClientHash | booru-sync.user.js:1155-1158 | a hash is returned exactly when the host has an entry for the id, and it is the stored hash |
| HashStore.SetClientHash | booru-sync.user.js:1160-1165 | the (host, id) entry becomes the hash with the current time; the host's map is created when missing; every other host and id is unchanged |
| HashStore.SetThenGet | booru-sync.user.js:1155-1165 | after a store, the stored (host, id) reads back the new hash and every other (host, id) reads as before |
| HashStore.TimestampNeverRead | booru-sync.user.js:1155-1158 | stores with the same hashes under the same keys read alike, whatever their timestamps |
| HashStore.SetAgainKeepsHashes | booru-sync.user.js:1160-1165 | storing the same hash again changes only the timestamp |
| Images.Transform | booru-sync.user.js:361-370 | `hash` is the stored client hash when it is a non-empty string, else `sha512_hash`; `computedHash` holds exactly in the first case; `orig_hash` is `orig_sha512_hash`; the file URL is the full representation made absolute |
| Images.SplitTags | booru-sync.user.js:606 | one tag per comma-separated piece, each trimmed and free of commas |
| Images.SplitTagsRoundTrip | booru-sync.user.js:606 | a comma-joined list of trimmed, comma-free tag names splits back into that list |
| Images.RailsTransform | booru-sync.user.js:604-608 | every field but the tags is what the Philomena normalisation gives (host, id, original hash, absolute file URL, the stored client hash preferred over the site hash); the tags are the comma-separated pieces of the tag string, trimmed, one per piece, none holding a comma |
| Images.StoredHashIsUsed | booru-sync.user.js:363-365 | after `setClientHash` stores a non-empty hash for an image, normalising that image uses it and marks it computed |
| Images.EmptyStoreKeepsSiteHash | booru-sync.user.js:361-366 | before anything is stored, every normalised image carries the site's own hash and is not marked computed |
| Images.HashCompare | booru-sync.user.js:1102-1107 | two images compare equal exactly when their sets of hash slots (absent slots being one value) intersect |
| Images.HashCompareSymmetric | booru-sync.user.js:1102-1107 | the comparison gives the same answer with source and destination swapped |
| Images.AbsentOriginalsMatch | booru-sync.user.js:1102-1107 | two images without original hashes compare equal, whatever their processed hashes are |
| Search.HasInteraction | booru-sync.user.js:293-298 | `some(...)` is true exactly when some interaction names the id with the kind's type (and value `up` for votes) |
| Search.FlagsFor | booru-sync.user.js:292-299 | `fave` holds exactly when some interaction of the id is `faved`; `like` holds exactly when some interaction of the id is `voted` with value `up` |
| Search.NoIdNoFlags | booru-sync.user.js:291-299 | without an id, neither flag is set |
| Search.HashTerms | booru-sync.user.js:276-280 | for each hash in order, `orig_sha512_hash:h` then `sha512_hash:h`, with absent hashes written as `null` / `undefined` |
| Search.SingleHashQuery | booru-sync.user.js:276-282 | the query for one hash is its two terms joined by ` \|\| ` |
| Search.SearchByHash | booru-sync.user.js:275-301 | a non-200 or failed reply is thrown; otherwise the id is the first result's (none without results) and the flags are those of that id |
| Search.LocationQueryNamesId | booru-sync.user.js:563-565 | the location query names Derpibooru and the source id, which reads back from it |
| Search.SearchByLocation | booru-sync.user.js:558-583 | images not from Derpibooru are not looked up (no id, no flags); otherwise a failed lookup is thrown as it came, a total of zero or less gives no id and no flags, a positive total gives exactly the first result's id with its interaction flags, and a positive total with no results throws a TypeError |
| Search.Usables | booru-sync.user.js:468-470 | a candidate is kept exactly when `duplicate_of` and `deletion_reason` are both strictly `null` |
| Search.UsablesAppend | booru-sync.user.js:468-470 | the filter keeps the candidates' order |
| Search.ReduceFrom | booru-sync.user.js:513-515 | `reduce` ends on a candidate with the greatest score, and every later candidate scores strictly less |
| Search.BestIndex | booru-sync.user.js:513-516 | over a non-empty list, the chosen index holds the greatest score and is the last to hold it |
| Search.LastBestUnique | booru-sync.user.js:513-516 | only one index is the last one with the greatest score |
| Search.Select | booru-sync.user.js:473-516 | no candidates give `null`; otherwise the id of the last candidate with the greatest score, which is the only candidate when there is one |
| Search.SearchByImage | booru-sync.user.js:462-518 | a failed reply is thrown; `null` exactly when no candidate survives the filter; otherwise the id of the last surviving candidate with the greatest score |
| Matching.ClientSideHash | booru-sync.user.js:303-333 | a download answered with status 200 always gives the hex of that file's digest, and a success comes only from such a download; a failure is a timeout exactly when the timer won the race or the download timed out |
| Matching.ClientHashIsDigest | booru-sync.user.js:315-331 | a file downloaded with status 200 always yields a hash, and that hex string reads back to the file's digest |
| Matching.AfterHashing | booru-sync.user.js:229-258 | client-side hashing runs exactly when the hash was not computed; a successful hashing always stores the new hash and searches for it alone, and the result then carries that search's id and flags, or on its error the first id and a timeout flag saying whether it timed out; a failed hashing keeps the first id and flags, stores nothing and flags a timeout exactly for a timeout; the result is still a hash match |
| Matching.AfterReverse | booru-sync.user.js:259-266 | `hashMatch` becomes false whatever the reverse search finds; Booru-on-Rails finds nothing (the base method returns `null`); on Philomena the id is what `searchByImage` returns, or none on an error, which sets `timeout` if it timed out |
| Matching.FindImage | booru-sync.user.js:211-270 | the call fails exactly when the first hash search fails; the fallback runs only without an id and with the setting on; hashing runs only for images without a computed hash; when the fallback leaves no id, the reverse search decides: the result is no hash match, and on Philomena its id is the reverse search's (none on an error); a timeout never comes with a hash match |
| Matching.StoredHashSkipsDownload | booru-sync.user.js:303-304 | once any non-empty hash (such as one computed by `findImage`) is stored for an image, its next normalisation carries it as computed, and the next `findImage` of it downloads nothing |
| Matching.LocationHitIsExact | booru-sync.user.js:548-557 | a Derpibooru image whose location lookup lists a result is found as an exact match with that result's id and flags, after the lookup alone |
| Matching.RailsWithoutLocation | booru-sync.user.js:548-563 | images from other sites are looked up by a Booru-on-Rails destination exactly as by the shared `findImage` |
| Matching.RailsFindImage | booru-sync.user.js:548-557 | a failed location lookup rejects; an id found by location is an exact match; otherwise the result is the shared `findImage`'s |
| Paging.PageCount | booru-sync.user.js:127 | `Math.ceil(total / 50)`: the page count `n` satisfies `50(n - 1) < total <= 50n` |
| Paging.SearchTerm | booru-sync.user.js:94-96 | the trimmed tag filter is conjoined as ` && (filter)` only for the source and only when it is not empty |
| Paging.PageLoop | booru-sync.user.js:99-136 | the loop stops as soon as `ok` reads false; a page that does not load with status 200 while `ok` holds makes the search throw; one `ok` check per page; the loop only adds to the records already gathered, except when a destination's first page takes the shortcut |
| Paging.PerformSearch | booru-sync.user.js:92-138 | returns `undefined` when `ok` is already false, throws when the first page fails, and counts between one and `ok` checks when it returns records |
| Paging.PerformSearchFails | booru-sync.user.js:110-120 | a page that fails while `ok` holds, after earlier pages that loaded with interactions, makes the whole search throw |
| Paging.PerformSearchCollects | booru-sync.user.js:98-138 | when pages 1..n load and page n is the first with no interactions, the result is every record of those pages in page order, after n checks |
| Paging.PerformSearchCancels | booru-sync.user.js:100-101 | when `ok` turns false before page n would be requested, the search returns `undefined` |
| Paging.DestinationShortcut | booru-sync.user.js:122-130 | a destination needing more pages than the source has interactions, or whose source has none, reads as having none after one request |
| Paging.GetInteractions | booru-sync.user.js:141-147 | with `ok` already false, or found false during the faves search or the later likes search, nothing is assigned; a kind not synced gets an empty list and a synced kind gets the normalised records its search returned; a failed faves page rejects the call, and so does a failed likes page after the faves were fetched; when every synced search returns records and `ok` still reads true afterwards, both lists are assigned |
| Paging.GetInteractionsCollects | booru-sync.user.js:89-148 | when both searches run to their last page with `ok` true throughout, the faves and likes are the normalised records of all their pages in order |
| Paging.Normalised | booru-sync.user.js:132 | each record is normalised in place, keeping the order |
| Token.ReuseWindow | booru-sync.user.js:342-344 | the age test `(now - createdAt) * 1e-3 / 60 < 6` holds exactly within 360000 ms of the token's creation |
| Token.GetToken | booru-sync.user.js:341-360 | a reusable token is returned with its counter raised by one; otherwise the fetched token is returned with the counter reset and the fetch time, or a TypeError is thrown when the page has none |
| Token.GetTokenKeepsValid | booru-sync.user.js:344-356 | the counter never exceeds 500 |
| Token.NewManagerFetchesToken | booru-sync.user.js:341-360 | a new manager holds no token, so its first `getToken` fetches one, or throws a TypeError when the page has none |
| Token.Reuses | booru-sync.user.js:344-346 | a run of consecutive reuses is at most 500 minus the counter, each call finds the token reusable, and the run stops at the first call that does not |
| Token.FetchedTokenServesAtMost501 | booru-sync.user.js:341-360 | a freshly fetched token is reused at most 500 times, all within six minutes of the fetch |
| Reconcile.Synced | booru-sync.user.js:153 | an image is already on the destination exactly when it compares equal to one of the destination's images |
| Reconcile.Pending | booru-sync.user.js:152-159 | exactly the source images not already on the destination remain |
| Reconcile.PendingAppend | booru-sync.user.js:152-159 | filtering a concatenation filters each part in order, so the source order is kept |
| Reconcile.PendingSingle | booru-sync.user.js:152-159 | a single image is kept exactly when no destination image is hash-equal to it |
| Reconcile.PendingIsSubsequence | booru-sync.user.js:152-159 | the pending images are a subsequence of the source list, in source order |
| Reconcile.PendingAgainstNothing | booru-sync.user.js:152-159 | against an empty destination list, every source image remains, in order |
| Reconcile.PendingWhenAllSynced | booru-sync.user.js:152-159 | when every source image is on the destination, none remains |
| Reconcile.BuildQueue | booru-sync.user.js:151-164 | the queue is the pending faves tagged fave, in source order, followed by the pending likes tagged like, in source order; membership is stated per kind |
| Reconcile.FailedFetchQueuesEverything | booru-sync.user.js:151-164 | a destination whose interaction fetch threw (empty lists) queues every source fave and like |
| Reconcile.SyncedSourceQueuesNothing | booru-sync.user.js:151-164 | a destination holding every source image gets an empty queue |
| Reconcile.Decide | booru-sync.user.js:184-206 | skip exactly for a hash match already carrying the kind; apply exactly for another hash match; suspect exactly for a match that is not a hash match; timeout exactly without an id and with the timeout flag |
| Reconcile.ReportCounts | booru-sync.user.js:193-205 | the `new` and `notFound` counters of each kind count the accepted requests and the misses of that kind in the log |
| Reconcile.ReportTotal | booru-sync.user.js:184-206 | every logged item lands in at most one report bucket, none for skipped items and refused requests |
| Reconcile.Remember | booru-sync.user.js:329-331 | a hash computed during the lookup is stored under the image's host and id, and every other host and id reads as before |
| Reconcile.ApplyTo | booru-sync.user.js:190-196 | the request is sent after `getToken`, and the manager keeps the token `getToken` returned even when the request then throws; it counts as imported exactly on status 200; it rejects exactly on a token or request error, with a TypeError when the page held no token or with the request's own error |
| Reconcile.Handle | booru-sync.user.js:182-206 | one log entry per item, agreeing with the decision on the lookup's result and, for an applied match, imported exactly when the destination answered 200; an applied match leaves the manager holding the token `getToken` returned; only an applied match sends a request or touches the token; a skipped item leaves the report as it was; it rejects only when `findImage` threw (with that error) or, for an applied match, when `getToken` found no token (a TypeError) or the request threw (with its error); an error leaves the log, report and requests as they were but keeps the stored hash and any refreshed token |
| Reconcile.RunFrom | booru-sync.user.js:167-207 | without an error, exactly as many items are processed as `ok` checks read true, up to the queue's length; the run completes exactly when the whole queue is processed; a run only appends to the log, and its i-th entry records the i-th queue item with the outcome that item's lookup and the destination's answer lead to; a run cancelled by `ok` processed exactly as many items as checks read true; a rejected run stopped at an item whose `findImage`, `getToken` or request threw, with that error, and keeps the state that item reached, so a hash its lookup computed stays stored |
| Reconcile.RunKeepsTokenValid | booru-sync.user.js:167-207 | the token counter stays within its bound through a whole run |
| Reconcile.Sync | booru-sync.user.js:149-210 | the report and the requests are those the log records; the i-th entry records the i-th item of the queue (pending faves, then pending likes) with the outcome its lookup and the destination's answer lead to; without an error exactly as many items are processed as `ok` checks read true, up to the queue's length; the run completes exactly when the whole queue is processed, and one cancelled by `ok` processed exactly `ok` items; a rejected run stopped at an item whose `findImage`, `getToken` or request threw, with that error |
| Reconcile.RequestSources | booru-sync.user.js:190-196 | every request comes from an applied entry of the same kind and id |
| Reconcile.RecordsAt | booru-sync.user.js:167-207 | any entry of a recorded stretch of the log names its queue item and carries the outcome that item's lookup leads to |
| Reconcile.LogAppliesOnlyHashMatches | booru-sync.user.js:184-199 | in a log recording a queue prefix, every request comes from an item whose lookup found a hash match lacking the interaction |
| Reconcile.RunAppliesOnlyHashMatches | booru-sync.user.js:184-199 | a request is only sent for an item whose lookup found a hash match lacking the interaction |
| Reconcile.SyncAppliesOnlyHashMatches | booru-sync.user.js:184-199 | a possible match from the reverse search is never applied by `sync` |
| Reconcile.RunOverSyncedItems | booru-sync.user.js:184-189 | items already carrying the interaction leave the report, the requests and the token unchanged |
| Reconcile.SyncWhenAllSynced | booru-sync.user.js:149-210 | a destination holding every source image completes at once with an empty report and no requests |

## Left out

- Network I/O is not modelled: `makeRequest`, `GM_xmlhttpRequest` and `fetch`. Each request's outcome is an input.
  - A request resolves to a loaded reply, a transport error or a timeout.
  - An interaction request is answered with a status or throws.
- `encodeSearch` and `encodeURIComponent` are left out as foreign calls. The model keys searches by the unencoded search term.
- SHA-512 (`crypto.subtle.digest`) is an uninterpreted parameter. Only the hex conversion is modelled.
- The similarity score of reverse-search candidates is an abstract real: it is computed with floating point, `Math.tanh` and a Jaccard index. NaN is not modelled.
- The `TIMEOUT` race is reduced to its outcome: the timer fires first, or the download resolves. A download that finishes after the timer fired (and may still store its hash) is concurrency and not modelled.
- Fan-out across destinations is not modelled: `Promise.allSettled`, `activeSyncs`, `presidentMadagascar` and `startSync`. The model covers one destination.
  - The hash store and the source image records are shared across concurrent destinations; that is not modelled.
  - `performClientSideHash` also writes `hash` and `computedHash` into the shared source record; that is not modelled.
- Token extraction from the front page's DOM is an input: the `content` of the `csrf-token` meta element, or none.
- Token.AgeMinutes: computed over exact reals, not 64-bit floating point.
- `GM_getValue` / `GM_setValue` persistence is left out. The hash store is an in-memory map.
- The UI, settings, `log` messages, `printReport` and `downloadLog` are left out. The model's log records one structured entry per processed item instead of its text.
- Paging.PageAt: pages beyond the ones given are answered as empty pages. A site answering forever with interactions would never stop the source's loop.
- The model has no hash-entry capacity, expiry, LRU order, store versioning or rate-limit back-off, because the code has none.

=== FILE: common.dfy ===
/** Value types shared by every part of the booru sync model. */
module Common {

  /** An optional value; `None` plays the part of JavaScript's `null`. */
  datatype Option<+T> = None | Some(value: T)

  /** The outcome of a step that may throw: `Err` carries what was thrown. */
  datatype Result<+T, +E> = Ok(value: T) | Err(error: E) {

    predicate IsFailure() {
      Err?
    }

    function PropagateFailure<U>(): Result<U, E>
      requires Err?
    {
      Err(error)
    }

    function Extract(): T
      requires Ok?
    {
      value
    }
  }

  /** A JavaScript property slot: a value, `null`, or absent (`undefined`). */
  datatype Js<+T> = Val(v: T) | Null | Undefined {

    predicate Nullish() {
      !Val?
    }
  }

  /** JavaScript's loose equality `==` between two slots of one value type:
      `null` and `undefined` equal each other and nothing else. */
  predicate LooseEq<T(==)>(a: Js<T>, b: Js<T>) {
    if a.Val? && b.Val? then a.v == b.v else a.Nullish() && b.Nullish()
  }

  /** The two interaction kinds that are synchronised. */
  datatype Kind = Fave | Like

  /** Image ids are JSON numbers handed out by the sites. */
  type Id = nat

  /** JavaScript truthiness of an id slot: `null` and `0` are falsy. */
  predicate Present(id: Option<Id>) {
    id.Some? && id.value != 0
  }

  /** JavaScript truthiness of a string slot: only a non-empty string is truthy. */
  predicate Truthy(s: Option<string>) {
    s.Some? && s.value != ""
  }
}

=== FILE: hash_store.dfy ===
/** The client-side hash store (`getClientHash` / `setClientHash`): a nested
    map from site host to image id to the hash computed in the browser and the
    time it was stored. It has no capacity bound and no expiry; the stored time
    is written but never read. */
module HashStore {
  import opened Common

  datatype Entry = Entry(hash: string, timestamp: int)

  type Store = map<string, map<Id, Entry>>

  const Empty: Store := map[]

  /** `store[host]?.[id]?.hash`. */
  function GetClientHash(store: Store, host: string, id: Id): (r: Option<string>)
    ensures r.Some? <==> host in store && id in store[host]
    ensures r.Some? ==> r.value == store[host][id].hash
  {
    if host in store && id in store[host] then Some(store[host][id].hash) else None
  }

  /** `setClientHash`: creates the host's map when missing and overwrites the
      entry for the id with the hash and the current time. */
  function SetClientHash(store: Store, host: string, id: Id, hash: string, now: int): (s': Store)
    ensures host in s' && id in s'[host] && s'[host][id] == Entry(hash, now)
    ensures s'.Keys == store.Keys + {host}
    ensures forall h :: h in store && h != host ==> s'[h] == store[h]
    ensures host in store ==> s'[host].Keys == store[host].Keys + {id}
    ensures host in store ==> forall i :: i in store[host] && i != id ==> s'[host][i] == store[host][i]
  {
    var inner := if host in store then store[host] else map[];
    store[host := inner[id := Entry(hash, now)]]
  }

  /** A stored hash is read back, and every other (host, id) reads as before. */
  lemma SetThenGet(store: Store, host: string, id: Id, hash: string, now: int, h: string, i: Id)
    ensures GetClientHash(SetClientHash(store, host, id, hash, now), h, i)
            == if h == host && i == id then Some(hash) else GetClientHash(store, h, i)
  {
  }

  /** The stored time never affects what is read: two stores holding the same
      hashes under the same keys read alike. */
  predicate SameHashes(a: Store, b: Store) {
    && a.Keys == b.Keys
    && forall h :: h in a ==> a[h].Keys == b[h].Keys && forall i :: i in a[h] ==> a[h][i].hash == b[h][i].hash
  }

  lemma TimestampNeverRead(a: Store, b: Store, h: string, i: Id)
    requires SameHashes(a, b)
    ensures GetClientHash(a, h, i) == GetClientHash(b, h, i)
  {
  }

  /** Storing the same hash again changes only the stored time. */
  lemma SetAgainKeepsHashes(store: Store, host: string, id: Id, hash: string, t1: int, t2: int)
    ensures SameHashes(SetClientHash(store, host, id, hash, t1),
                       SetClientHash(SetClientHash(store, host, id, hash, t1), host, id, hash, t2))
  {
  }
}

=== FILE: hex.dfy ===
/** The conversion of a SHA-512 digest into the lowercase hex string the
    sites use for `sha512_hash`: every byte becomes `b.toString(16)` padded to
    two characters with `0`, and the pieces are joined without separator. */
module Hex {
  import opened Common

  newtype byte = x: int | 0 <= x < 256

  /** A lowercase hex digit, `0`-`9` or `a`-`f`. */
  predicate IsHexDigit(ch: char) {
    ('0' <= ch <= '9') || ('a' <= ch <= 'f')
  }

  /** The lowercase hex digit of a value below sixteen. */
  function HexDigit(k: nat): (ch: char)
    requires k < 16
    ensures IsHexDigit(ch)
  {
    if k < 10 then ('0' as int + k) as char else ('a' as int + k - 10) as char
  }

  /** The value of a lowercase hex digit, `None` for any other character. */
  function DigitValue(ch: char): (r: Option<nat>)
    ensures r.Some? <==> IsHexDigit(ch)
    ensures r.Some? ==> r.value < 16 && HexDigit(r.value) == ch
    ensures forall k: nat :: k < 16 && HexDigit(k) == ch ==> r == Some(k)
  {
    if '0' <= ch <= '9' then Some(ch as int - '0' as int)
    else if 'a' <= ch <= 'f' then Some(ch as int - 'a' as int + 10)
    else None
  }

  /** `b.toString(16).padStart(2, '0')`. */
  function ByteHex(b: byte): (r: string)
    ensures |r| == 2
    ensures DigitValue(r[0]).Some? && DigitValue(r[1]).Some?
    ensures DigitValue(r[0]).value * 16 + DigitValue(r[1]).value == b as int
  {
    [HexDigit((b / 16) as nat), HexDigit((b % 16) as nat)]
  }

  /** The digest as hex: two lowercase hex digits per byte, in byte order. */
  function ToHex(bytes: seq<byte>): (r: string)
    ensures |r| == 2 * |bytes|
    ensures forall i :: 0 <= i < |r| ==> IsHexDigit(r[i])
  {
    if |bytes| == 0 then "" else ByteHex(bytes[0]) + ToHex(bytes[1..])
  }

  /** Reads a hex string back into bytes; `None` for odd length or a character
      that is not a lowercase hex digit. */
  function FromHex(s: string): Option<seq<byte>>
    decreases |s|
  {
    if |s| == 0 then Some([])
    else if |s| == 1 then None
    else
      match (DigitValue(s[0]), DigitValue(s[1]), FromHex(s[2..]))
      case (Some(hi), Some(lo), Some(rest)) => Some([(hi * 16 + lo) as byte] + rest)
      case _ => None
  }

  /** The hex form of a digest determines the digest: reading it back gives the
      bytes that were written. */
  lemma {:induction false} HexRoundTrip(bytes: seq<byte>)
    ensures FromHex(ToHex(bytes)) == Some(bytes)
    decreases |bytes|
  {
    if |bytes| > 0 {
      var s := ToHex(bytes);
      var h := ByteHex(bytes[0]);
      HexRoundTrip(bytes[1..]);
      assert s == h + ToHex(bytes[1..]);
      assert s[0] == h[0] && s[1] == h[1];
      assert s[2..] == ToHex(bytes[1..]);
      var hi, lo := DigitValue(h[0]).value, DigitValue(h[1]).value;
      assert (hi * 16 + lo) as byte == bytes[0];
      assert FromHex(s) == Some([bytes[0]] + bytes[1..]);
      assert [bytes[0]] + bytes[1..] == bytes;
    }
  }

  /** Different digests never give the same hex string. */
  lemma HexInjective(a: seq<byte>, b: seq<byte>)
    requires ToHex(a) == ToHex(b)
    ensures a == b
  {
    HexRoundTrip(a);
    HexRoundTrip(b);
  }
}

=== FILE: http.dfy ===
/** What a request can resolve to, and how `handleResponse` turns it into a
    value or a thrown error. */
module Http {
  import opened Common

  /** The value `makeRequest` resolves with: a loaded response (any status),
      the `{error: true}` object of a transport error, or the
      `{timeout: true, error: true}` object of a transport timeout. */
  datatype Reply<+B> = Loaded(status: int, body: B) | Errored | TimedOut

  /** What a rejected step carries: the thrown reply of a timeout, of a
      transport error or of a bad status, or a TypeError raised by the script. */
  datatype Failure = Timeout | Transport | Status(code: int) | TypeError {

    /** `err.timeout` is truthy only on the timeout object. */
    predicate IsTimeout() {
      Timeout?
    }
  }

  /** `handleResponse`: throws the reply unless it loaded with status 200. */
  function HandleResponse<B>(r: Reply<B>): (res: Result<B, Failure>)
    ensures res.Ok? <==> r.Loaded? && r.status == 200
    ensures res.Ok? ==> res.value == r.body
    ensures res.Err? ==> (res.error.IsTimeout() <==> r.TimedOut?)
    ensures res.Err? ==> !res.error.TypeError?
  {
    match r
    case Loaded(status, body) => if status == 200 then Ok(body) else Err(Status(status))
    case Errored => Err(Transport)
    case TimedOut => Err(Timeout)
  }
}

=== FILE: images.dfy ===
/** Image records: what a search page returns, the normalised record the sync
    works with (`transformImageResponse` of both site families) and
    `hashCompare`, the test for "the same file". */
module Images {
  import opened Common
  import opened Text
  import opened Urls
  import opened HashStore

  /** The fields of a search-result image the sync reads. The two hash slots
      may be `null` or missing in the JSON. */
  datatype RawImage = RawImage(
    id: Id,
    sha512: Js<string>,
    origSha512: Js<string>,
    fullUrl: string,
    mime: string)

  /** A normalised image: `hash` is the client-side hash when one is stored,
      otherwise the site's `sha512_hash`; `computedHash` records which. */
  datatype Image = Image(
    host: string,
    id: Id,
    hash: Js<string>,
    origHash: Js<string>,
    computedHash: bool,
    fileUrl: string,
    mime: string,
    tags: seq<string>)

  /** `transformImageResponse` of Philomena sites, whose tags already are a
      list. A stored client hash is used only when it is a non-empty string,
      because the source combines the two with `||`. */
  function Transform(raw: RawImage, tags: seq<string>, host: string, store: Store): (img: Image)
    ensures img.host == host && img.id == raw.id && img.mime == raw.mime && img.tags == tags
    ensures img.origHash == raw.origSha512
    ensures img.fileUrl == MakeAbsolute(raw.fullUrl, host)
    ensures img.computedHash <==> Truthy(GetClientHash(store, host, raw.id))
    ensures img.computedHash ==> img.hash == Val(store[host][raw.id].hash)
    ensures !img.computedHash ==> img.hash == raw.sha512
  {
    var clientHash := GetClientHash(store, host, raw.id);
    Image(
      host, raw.id,
      if Truthy(clientHash) then Val(clientHash.value) else raw.sha512,
      raw.origSha512,
      Truthy(clientHash),
      MakeAbsolute(raw.fullUrl, host),
      raw.mime, tags)
  }

  /** `tagString.split(',').map(tagName => tagName.trim())`. */
  function SplitTags(text: string): (tags: seq<string>)
    ensures |tags| == |Split(text, ',')|
    ensures forall i :: 0 <= i < |tags| ==> tags[i] == Trim(Split(text, ',')[i])
    ensures forall i :: 0 <= i < |tags| ==> ',' !in tags[i]
  {
    var pieces := Split(text, ',');
    seq(|pieces|, i requires 0 <= i < |pieces| => TrimPiece(pieces[i], ','))
  }

  /** Trimming keeps a character-free piece free of that character. */
  function TrimPiece(piece: string, c: char): (r: string)
    requires c !in piece
    ensures r == Trim(piece) && c !in r
  {
    var r := Trim(piece);
    ghost var a: nat :| TrimmedAt(piece, r, a);
    assert forall k :: 0 <= k < |r| ==> r[k] == piece[a + k];
    r
  }

  /** A tag string of comma-separated names without surrounding blanks splits
      back into those names. */
  lemma {:induction false} SplitTagsRoundTrip(names: seq<string>)
    requires |names| >= 1
    requires forall i :: 0 <= i < |names| ==> ',' !in names[i] && Trim(names[i]) == names[i]
    ensures SplitTags(Join(names, ",")) == names
  {
    SplitJoin(names, ',');
  }

  /** `transformImageResponse` of Booru-on-Rails sites: the shared
      normalisation, then the comma-separated tag string split into trimmed
      names. */
  function RailsTransform(raw: RawImage, tagText: string, host: string, store: Store): (img: Image)
    ensures img.host == host && img.id == raw.id && img.mime == raw.mime
    ensures img.origHash == raw.origSha512 && img.fileUrl == MakeAbsolute(raw.fullUrl, host)
    ensures img.computedHash <==> Truthy(GetClientHash(store, host, raw.id))
    ensures img.hash == if img.computedHash then Val(store[host][raw.id].hash) else raw.sha512
    ensures |img.tags| == |Split(tagText, ',')|
    ensures forall i :: 0 <= i < |img.tags| ==> img.tags[i] == Trim(Split(tagText, ',')[i]) && ',' !in img.tags[i]
    ensures img.(tags := []) == Transform(raw, [], host, store)
  {
    Transform(raw, SplitTags(tagText), host, store)
  }

  /** Before anything is stored, every image keeps the site's hash. */
  lemma EmptyStoreKeepsSiteHash(raw: RawImage, tags: seq<string>, host: string)
    ensures !Transform(raw, tags, host, Empty).computedHash
    ensures Transform(raw, tags, host, Empty).hash == raw.sha512
  {
  }

  /** After the browser stores a non-empty hash for an image, normalising that
      image again uses the stored hash and marks it as computed. */
  lemma StoredHashIsUsed(raw: RawImage, tags: seq<string>, host: string, store: Store, hash: string, now: int)
    requires hash != ""
    ensures var img := Transform(raw, tags, host, SetClientHash(store, host, raw.id, hash, now));
            img.hash == Val(hash) && img.computedHash
  {
  }

  /** `hashCompare(sourceImg, destImg)`: the original or processed hash of one
      loosely equals the original or processed hash of the other. */
  function HashCompare(a: Image, b: Image): (r: bool)
    ensures r <==> HashKeys(a) * HashKeys(b) != {}
  {
    LooseEqIsKeyEquality(a.origHash, b.origHash);
    LooseEqIsKeyEquality(a.origHash, b.hash);
    LooseEqIsKeyEquality(a.hash, b.origHash);
    LooseEqIsKeyEquality(a.hash, b.hash);
    var both := HashKeys(a) * HashKeys(b);
    assert HashKey(a.origHash) == HashKey(b.origHash) ==> HashKey(a.origHash) in both;
    assert HashKey(a.origHash) == HashKey(b.hash) ==> HashKey(a.origHash) in both;
    assert HashKey(a.hash) == HashKey(b.origHash) ==> HashKey(a.hash) in both;
    assert HashKey(a.hash) == HashKey(b.hash) ==> HashKey(a.hash) in both;
    LooseEq(a.origHash, b.origHash)
    || LooseEq(a.origHash, b.hash)
    || LooseEq(a.hash, b.origHash)
    || LooseEq(a.hash, b.hash)
  }

  /** A hash slot as `==` sees it: `null` and `undefined` collapse to `None`. */
  function HashKey(h: Js<string>): Option<string>
  {
    if h.Val? then Some(h.v) else None
  }

  /** Loose equality of hash slots is equality of their keys. */
  lemma LooseEqIsKeyEquality(h: Js<string>, g: Js<string>)
    ensures LooseEq(h, g) <==> HashKey(h) == HashKey(g)
  {
  }

  /** The two hash slots of an image, as `==` sees them. */
  function HashKeys(img: Image): set<Option<string>> {
    {HashKey(img.hash), HashKey(img.origHash)}
  }

  /** The four-way comparison does not depend on which image is the source. */
  lemma {:induction false} HashCompareSymmetric(a: Image, b: Image)
    ensures HashCompare(a, b) == HashCompare(b, a)
  {
    assert HashKeys(a) * HashKeys(b) == HashKeys(b) * HashKeys(a);
  }

  /** Two images whose original hashes are both missing (`null` or
      `undefined`) compare as equal whatever their processed hashes are, since
      JavaScript's `==` makes the two absent values equal. */
  lemma AbsentOriginalsMatch(a: Image, b: Image)
    requires a.origHash.Nullish() && b.origHash.Nullish()
    ensures HashCompare(a, b)
  {
  }
}

=== FILE: matching.dfy ===
/** `findImage`: locating a source image on a destination by escalating from
    the hash search to client-side hashing and a second hash search, and
    then to the reverse image search. Booru-on-Rails destinations first try
    the lookup by original location. */
module Matching {
  import opened Common
  import opened Http
  import opened Hex
  import opened Urls
  import opened Images
  import opened Search
  import opened HashStore

  /** The two site families; they share `findImage` but differ in the
      location lookup and in the reverse search. */
  datatype Variant = Philomena | BooruOnRails

  /** How the race between the file download and the independent timer of
      `findImage` ends: the timer resolves first, or the download request
      resolves with a reply. */
  datatype Hashing = TimerFired | Downloaded(reply: Reply<seq<byte>>)

  /** What the outside world answers during one `findImage`: the search
      endpoint by search term, the reverse-search endpoint by file URL, the file
      download by URL, and the browser's SHA-512 digest. */
  datatype Remote = Remote(
    search: string -> Reply<SearchBody>,
    reverse: string -> Reply<ReverseBody>,
    download: string -> Hashing,
    sha512: seq<byte> -> seq<byte>)

  /** The steps `findImage` went through, in order. */
  datatype Stage = LocationLookup | HashSearch | ClientHash | ComputedHashSearch | ReverseSearch

  /** The `{id, hashMatch, timeout, interaction}` result, together with the
      hash stored by `setClientHash` during the call (if any) and the steps
      taken. */
  datatype Found = Found(
    id: Option<Id>,
    hashMatch: bool,
    timeout: bool,
    flags: Flags,
    stored: Option<string>,
    trail: seq<Stage>)

  /** `performClientSideHash` raced against the timer: the hex digest of the
      downloaded file, or what was thrown. */
  function ClientSideHash(img: Image, remote: Remote): (r: Result<string, Failure>)
    ensures r.Err? ==> (r.error.IsTimeout() <==>
                        remote.download(DownloadUrl(img.fileUrl, img.mime)).TimerFired?
                        || remote.download(DownloadUrl(img.fileUrl, img.mime)).reply.TimedOut?)
    ensures r.Ok? ==> exists bytes :: remote.download(DownloadUrl(img.fileUrl, img.mime)) == Downloaded(Loaded(200, bytes))
                                      && r.value == ToHex(remote.sha512(bytes))
    ensures var h := remote.download(DownloadUrl(img.fileUrl, img.mime));
            h.Downloaded? && h.reply.Loaded? && h.reply.status == 200 ==> r == Ok(ToHex(remote.sha512(h.reply.body)))
  {
    match remote.download(DownloadUrl(img.fileUrl, img.mime))
    case TimerFired => Err(Timeout)
    case Downloaded(reply) =>
      var bytes :- HandleResponse(reply);
      Ok(ToHex(remote.sha512(bytes)))
  }

  /** The query of the first hash search: the processed hash, then the
      original one. */
  function FirstQuery(img: Image): string {
    HashQuery([img.hash, img.origHash])
  }

  /** The state after the first hash search and, when it is entered, the
      client-side hashing step: hashing runs only for an image whose hash was
      not computed in the browser; on success the new hash is searched for on
      its own. */
  function AfterHashing(img: Image, remote: Remote, first: Hit): (f: Found)
    requires !Present(first.destId)
    ensures f.hashMatch
    ensures |f.trail| >= 1 && f.trail[0] == HashSearch && ReverseSearch !in f.trail
    ensures ClientHash in f.trail <==> !img.computedHash
    ensures f.stored.Some? ==> ClientHash in f.trail && ClientSideHash(img, remote) == Ok(f.stored.value)
    ensures ComputedHashSearch in f.trail <==> f.stored.Some?
    ensures f.id != first.destId ==> ComputedHashSearch in f.trail
    ensures f.timeout ==> ClientHash in f.trail && !Present(f.id)
    ensures img.computedHash ==> f.id == first.destId && f.flags == first.flags && !f.timeout && f.stored.None?
    ensures !img.computedHash && ClientSideHash(img, remote).Err? ==>
              && f.id == first.destId && f.flags == first.flags && f.stored.None?
              && f.timeout == ClientSideHash(img, remote).error.IsTimeout()
    ensures !img.computedHash && ClientSideHash(img, remote).Ok? ==>
              var hex := ClientSideHash(img, remote).value;
              var second := SearchByHash(remote.search(HashQuery([Val(hex)])));
              && f.stored == Some(hex)
              && (second.Ok? ==> f.id == second.value.destId && f.flags == second.value.flags && !f.timeout)
              && (second.Err? ==> f.id == first.destId && f.flags == first.flags && f.timeout == second.error.IsTimeout())
  {
    if img.computedHash then
      Found(first.destId, true, false, first.flags, None, [HashSearch])
    else
      var hashed := ClientSideHash(img, remote);
      if hashed.Err? then
        Found(first.destId, true, hashed.error.IsTimeout(), first.flags, None, [HashSearch, ClientHash])
      else
        var trail := [HashSearch, ClientHash, ComputedHashSearch];
        var second := SearchByHash(remote.search(HashQuery([Val(hashed.value)])));
        if second.Err? then Found(first.destId, true, second.error.IsTimeout(), first.flags, Some(hashed.value), trail)
        else Found(second.value.destId, true, false, second.value.flags, Some(hashed.value), trail)
  }

  /** The reverse-search step: `hashMatch` becomes false before the search,
      whatever it finds. Booru-on-Rails managers do not override the base
      `searchByImage`, which returns `null` without a request. A thrown error
      leaves no id and sets `timeout` if it was a timeout. */
  function AfterReverse(v: Variant, img: Image, remote: Remote, st: Found): (f: Found)
    ensures !f.hashMatch && f.trail == st.trail + [ReverseSearch]
    ensures f.flags == st.flags && f.stored == st.stored
    ensures f.timeout == (st.timeout || (v.Philomena? && SearchByImage(remote.reverse(img.fileUrl)).Err?
                                         && SearchByImage(remote.reverse(img.fileUrl)).error.IsTimeout()))
    ensures v.BooruOnRails? ==> f.id.None?
    ensures v.Philomena? ==> f.id == match SearchByImage(remote.reverse(img.fileUrl))
                                     case Ok(id) => id
                                     case Err(_) => None
  {
    var trail := st.trail + [ReverseSearch];
    match v
    case BooruOnRails => Found(None, false, st.timeout, st.flags, st.stored, trail)
    case Philomena =>
      match SearchByImage(remote.reverse(img.fileUrl))
      case Err(e) => Found(None, false, st.timeout || e.IsTimeout(), st.flags, st.stored, trail)
      case Ok(id) => Found(id, false, st.timeout, st.flags, st.stored, trail)
  }

  /** `SyncManager.findImage`. An error thrown by the first hash search is not
      caught and rejects the call; the fallback runs only when that search
      found no id and the fallback setting is on; client-side hashing runs only
      for an image without a computed hash; the reverse search runs only when
      there is still no id, and from then on the result is not a hash match. */
  function FindImage(v: Variant, img: Image, useFallback: bool, remote: Remote): (r: Result<Found, Failure>)
    ensures r.Err? <==> SearchByHash(remote.search(FirstQuery(img))).Err?
    ensures r.Ok? ==>
              var first := SearchByHash(remote.search(FirstQuery(img))).value;
              var f := r.value;
              && |f.trail| >= 1 && f.trail[0] == HashSearch
              && (Present(first.destId) || !useFallback ==> f == Found(first.destId, true, false, first.flags, None, [HashSearch]))
              && (ClientHash in f.trail <==> !Present(first.destId) && useFallback && !img.computedHash)
              && (ReverseSearch in f.trail <==> !f.hashMatch)
              && (!f.hashMatch ==> useFallback && !Present(first.destId))
              && (f.timeout ==> !f.hashMatch)
              && (f.hashMatch ==> f.id == first.destId || ComputedHashSearch in f.trail)
              && (f.stored.Some? ==> ClientSideHash(img, remote) == Ok(f.stored.value))
              && (v.BooruOnRails? && !f.hashMatch ==> f.id.None?)
    ensures r.Ok? && !Present(SearchByHash(remote.search(FirstQuery(img))).value.destId) && useFallback ==>
              var after := AfterHashing(img, remote, SearchByHash(remote.search(FirstQuery(img))).value);
              && (Present(after.id) ==> r.value == after)
              && (!Present(after.id) ==>
                    && r.value == AfterReverse(v, img, remote, after)
                    && !r.value.hashMatch && r.value.flags == after.flags && r.value.stored == after.stored
                    && (v.Philomena? ==> r.value.id == match SearchByImage(remote.reverse(img.fileUrl))
                                                      case Ok(id) => id
                                                      case Err(_) => None))
  {
    var first :- SearchByHash(remote.search(FirstQuery(img)));
    if Present(first.destId) || !useFallback then
      Ok(Found(first.destId, true, false, first.flags, None, [HashSearch]))
    else
      var st := AfterHashing(img, remote, first);
      if Present(st.id) then Ok(st)
      else Ok(AfterReverse(v, img, remote, st))
  }

  /** `BooruOnRailsSyncManager.findImage`: the location lookup first (only
      images from Derpibooru are looked up, and an error there is not
      caught); an id found there is taken as an exact match, otherwise the
      shared `findImage` decides. */
  function RailsFindImage(img: Image, useFallback: bool, remote: Remote): (r: Result<Found, Failure>)
    ensures SearchByLocation(img, remote.search).Err? ==> r.Err?
    ensures r.Ok? && Present(SearchByLocation(img, remote.search).value.destId) ==>
              var hit := SearchByLocation(img, remote.search).value;
              r.value == Found(hit.destId, true, false, hit.flags, None, [LocationLookup])
    ensures SearchByLocation(img, remote.search).Ok? && !Present(SearchByLocation(img, remote.search).value.destId) ==>
              match FindImage(BooruOnRails, img, useFallback, remote)
              case Err(e) => r == Err(e)
              case Ok(f) => r.Ok? && r.value.id == f.id && r.value.hashMatch == f.hashMatch
                            && r.value.timeout == f.timeout && r.value.flags == f.flags
                            && r.value.stored == f.stored
    ensures r.Ok? && !r.value.hashMatch ==> r.value.id.None?
  {
    var hit :- SearchByLocation(img, remote.search);
    if Present(hit.destId) then
      Ok(Found(hit.destId, true, false, hit.flags, None, [LocationLookup]))
    else
      var f :- FindImage(BooruOnRails, img, useFallback, remote);
      var lead := if img.host == DerpibooruHost then [LocationLookup] else [];
      Ok(f.(trail := lead + f.trail))
  }

  /** The hex string client-side hashing yields for a file downloaded with
      status 200 is that file's digest: reading it back gives the digest's
      bytes. */
  lemma ClientHashIsDigest(img: Image, remote: Remote, bytes: seq<byte>)
    requires remote.download(DownloadUrl(img.fileUrl, img.mime)) == Downloaded(Loaded(200, bytes))
    ensures ClientSideHash(img, remote).Ok?
    ensures FromHex(ClientSideHash(img, remote).value) == Some(remote.sha512(bytes))
  {
    HexRoundTrip(remote.sha512(bytes));
  }

  /** A hash computed during one `findImage` is not computed again: once any
      non-empty hash (such as the one `findImage` stored) is kept for the
      image, its next normalisation carries it as a computed hash, so the
      next `findImage` of that image downloads nothing. */
  lemma StoredHashSkipsDownload(v: Variant, raw: RawImage, tags: seq<string>, host: string, store: Store,
                                useFallback: bool, remote: Remote, hex: string, now: int)
    requires hex != ""
    ensures var again := Transform(raw, tags, host, SetClientHash(store, host, raw.id, hex, now));
            && again.hash == Val(hex) && again.computedHash
            && (FindImage(v, again, useFallback, remote).Ok? ==>
                  ClientHash !in FindImage(v, again, useFallback, remote).value.trail)
  {
    StoredHashIsUsed(raw, tags, host, store, hex, now);
  }

  /** A Derpibooru image found by its original location is an exact match,
      whatever the hash searches would have said. */
  lemma LocationHitIsExact(img: Image, useFallback: bool, remote: Remote)
    requires img.host == DerpibooruHost
    requires var reply := remote.search(LocationQuery(img.id));
             reply.Loaded? && reply.status == 200 && reply.body.total > 0
             && |reply.body.ids| > 0 && reply.body.ids[0] != 0
    ensures var body := remote.search(LocationQuery(img.id)).body;
            RailsFindImage(img, useFallback, remote)
            == Ok(Found(Some(body.ids[0]), true, false, FlagsFor(body.interactions, Some(body.ids[0])), None, [LocationLookup]))
  {
  }

  /** Images from other sites skip the location lookup: a Booru-on-Rails
      destination then looks them up exactly as the shared `findImage` does. */
  lemma RailsWithoutLocation(img: Image, useFallback: bool, remote: Remote)
    requires img.host != DerpibooruHost
    ensures RailsFindImage(img, useFallback, remote) == FindImage(BooruOnRails, img, useFallback, remote)
  {
    match FindImage(BooruOnRails, img, useFallback, remote)
    case Err(_) =>
    case Ok(f) => assert [] + f.trail == f.trail;
  }

  /** `findImage` as dispatched on the destination's site family. */
  function FindImageFor(v: Variant, img: Image, useFallback: bool, remote: Remote): Result<Found, Failure>
  {
    match v
    case Philomena => FindImage(Philomena, img, useFallback, remote)
    case BooruOnRails => RailsFindImage(img, useFallback, remote)
  }
}

=== FILE: paging.dfy ===
/** `getInteractions`: paging through a site's fave and upvote searches. The
    source conjoins the tag filter; a destination may give up on page one
    when it would need more pages than the source has interactions. */
module Paging {
  import opened Common
  import opened Text
  import opened Http
  import opened Images

  const ResultsPerPage: nat := 50

  const FavesTerm := "my:faves"
  const LikesTerm := "(my:upvotes, -my:faves)"

  /** One page of a search response: the reported total, the page's image
      records (`R` is the site family's raw record) and the length of its
      `interactions` list. */
  datatype Page<R> = Page(total: int, collection: seq<R>, interactions: nat)

  /** `Math.ceil(total / 50)`: the fewest pages of fifty holding `total`
      results (for a negative total, the ceiling of a negative quotient). */
  function PageCount(total: int): (n: int)
    ensures (n - 1) * ResultsPerPage < total <= n * ResultsPerPage
  {
    if total > 0 then (total + ResultsPerPage - 1) / ResultsPerPage
    else -((-total) / ResultsPerPage)
  }

  /** The search term of `performSearch`: the tag filter, trimmed by the
      manager's constructor, is conjoined only for the source and only when it
      is not empty. */
  function SearchTerm(base: string, isSource: bool, tagFilter: string): (q: string)
    ensures isSource && Trim(tagFilter) != "" ==> q == base + " && (" + Trim(tagFilter) + ")"
    ensures !isSource || Trim(tagFilter) == "" ==> q == base
  {
    var filter := Trim(tagFilter);
    if isSource && filter != "" then base + " && (" + filter + ")" else base
  }

  /** Pages the site is asked for beyond the ones given answer with an empty
      page, as the sites do past the last result. */
  function PageAt<R>(pages: seq<Reply<Page<R>>>, page: nat): Reply<Page<R>>
    requires page >= 1
  {
    if page <= |pages| then pages[page - 1] else Loaded(200, Page(0, [], 0))
  }

  /** How `performSearch` ends: with the accumulated records and the number
      of `ok` checks it made (one per page requested), by returning
      `undefined` when `ok` was found false, or by throwing on a failed page. */
  datatype Fetch<R> = Fetched(items: seq<R>, checks: nat) | Cancelled | Failed

  /** The page-one shortcut of a destination. */
  predicate Shortcut(total: int, sourceTotal: nat) {
    PageCount(total) > sourceTotal || sourceTotal == 0
  }

  /** The `do ... while` loop of `performSearch` from page `page` on, `accu`
      holding the records of the earlier pages. `ok` only ever changes from
      true to false, so it is modelled by `ok`, the number of checks still
      to read true. */
  function PageLoop<R>(pages: seq<Reply<Page<R>>>, isSource: bool, sourceTotal: nat,
                       ok: nat, page: nat, accu: seq<R>): (r: Fetch<R>)
    requires page >= 1
    ensures ok == 0 ==> r == Cancelled
    ensures ok > 0 && HandleResponse(PageAt(pages, page)).Err? ==> r == Failed
    ensures r.Fetched? ==> 1 <= r.checks <= ok
    ensures r.Fetched? ==> (r.items == [] && !isSource && page == 1)
                           || (|accu| <= |r.items| && r.items[..|accu|] == accu)
    decreases ok
  {
    if ok == 0 then Cancelled
    else
      match PageAt(pages, page)
      case Loaded(status, body) =>
        if status != 200 then Failed
        else if page == 1 && !isSource && Shortcut(body.total, sourceTotal) then Fetched([], 1)
        else
          var accu' := accu + body.collection;
          if body.interactions > 0 then
            match PageLoop(pages, isSource, sourceTotal, ok - 1, page + 1, accu')
            case Fetched(items, checks) =>
              assert items[..|accu|] == items[..|accu'|][..|accu|];
              Fetched(items, checks + 1)
            case other => other
          else Fetched(accu', 1)
      case _ => Failed
  }

  /** `performSearch` once its term is built: it returns `undefined` when
      `ok` is already false, and throws when the first page fails. */
  function PerformSearch<R>(pages: seq<Reply<Page<R>>>, isSource: bool, sourceTotal: nat, ok: nat): (r: Fetch<R>)
    ensures ok == 0 ==> r == Cancelled
    ensures ok > 0 && HandleResponse(PageAt(pages, 1)).Err? ==> r == Failed
    ensures r.Fetched? ==> 1 <= r.checks <= ok
  {
    PageLoop(pages, isSource, sourceTotal, ok, 1, [])
  }

  /** The records of pages `1..n`, in page order. */
  function Collected<R>(pages: seq<Reply<Page<R>>>, n: nat): seq<R>
    requires n <= |pages|
    requires forall k :: 0 <= k < n ==> pages[k].Loaded?
  {
    if n == 0 then [] else Collected(pages, n - 1) + pages[n - 1].body.collection
  }

  /** Pages `1..n` answered with status 200; every page but the last listed
      interactions and the last listed none. */
  predicate RunOfPages<R>(pages: seq<Reply<Page<R>>>, n: nat) {
    && 1 <= n <= |pages|
    && (forall k :: 0 <= k < n ==> pages[k].Loaded? && pages[k].status == 200)
    && (forall k :: 0 <= k < n - 1 ==> pages[k].body.interactions > 0)
    && pages[n - 1].body.interactions == 0
  }

  lemma {:induction false} PageLoopCollects<R>(pages: seq<Reply<Page<R>>>, isSource: bool, sourceTotal: nat,
                                               ok: nat, n: nat, page: nat)
    requires RunOfPages(pages, n) && 2 <= page <= n
    requires ok >= n - page + 1
    ensures PageLoop(pages, isSource, sourceTotal, ok, page, Collected(pages, page - 1))
            == Fetched(Collected(pages, n), n - page + 1)
    decreases n - page
  {
    if page < n {
      PageLoopCollects(pages, isSource, sourceTotal, ok - 1, n, page + 1);
    }
  }

  lemma {:induction false} PageLoopCancels<R>(pages: seq<Reply<Page<R>>>, isSource: bool, sourceTotal: nat,
                                              ok: nat, n: nat, page: nat, accu: seq<R>)
    requires RunOfPages(pages, n) && 2 <= page <= n
    requires ok < n - page + 1
    ensures PageLoop(pages, isSource, sourceTotal, ok, page, accu) == Cancelled
    decreases ok
  {
    if ok > 0 {
      PageLoopCancels(pages, isSource, sourceTotal, ok - 1, n, page + 1, accu + pages[page - 1].body.collection);
    }
  }

  /** When the first `n` pages load and the `n`-th is the first without
      interactions, and `ok` holds for those `n` checks, the result is every
      record of those pages in page order, unless a destination takes the
      page-one shortcut. */
  lemma {:induction false} PerformSearchCollects<R>(pages: seq<Reply<Page<R>>>, isSource: bool, sourceTotal: nat,
                                                    ok: nat, n: nat)
    requires RunOfPages(pages, n) && n <= ok
    requires !isSource ==> !Shortcut(pages[0].body.total, sourceTotal)
    ensures PerformSearch(pages, isSource, sourceTotal, ok) == Fetched(Collected(pages, n), n)
  {
    assert Collected(pages, 1) == [] + pages[0].body.collection;
    if n > 1 {
      PageLoopCollects(pages, isSource, sourceTotal, ok - 1, n, 2);
    }
  }

  /** If `ok` turns false before the last of those pages is requested, the
      search returns `undefined` and its records are dropped. */
  lemma {:induction false} PerformSearchCancels<R>(pages: seq<Reply<Page<R>>>, isSource: bool, sourceTotal: nat,
                                                   ok: nat, n: nat)
    requires RunOfPages(pages, n) && ok < n
    requires !isSource ==> !Shortcut(pages[0].body.total, sourceTotal)
    ensures PerformSearch(pages, isSource, sourceTotal, ok) == Cancelled
  {
    if ok > 0 {
      PageLoopCancels(pages, isSource, sourceTotal, ok - 1, n, 2, [] + pages[0].body.collection);
    }
  }

  /** Pages `1..n-1` answered with status 200 and listed interactions, and
      page `n` failed. */
  predicate FailsAt<R>(pages: seq<Reply<Page<R>>>, n: nat) {
    && 1 <= n <= |pages|
    && (forall k :: 0 <= k < n - 1 ==> pages[k].Loaded? && pages[k].status == 200 && pages[k].body.interactions > 0)
    && HandleResponse(pages[n - 1]).Err?
  }

  lemma {:induction false} PageLoopFails<R>(pages: seq<Reply<Page<R>>>, isSource: bool, sourceTotal: nat,
                                            ok: nat, n: nat, page: nat, accu: seq<R>)
    requires FailsAt(pages, n) && 2 <= page <= n
    requires ok >= n - page + 1
    ensures PageLoop(pages, isSource, sourceTotal, ok, page, accu) == Failed
    decreases n - page
  {
    if page < n {
      PageLoopFails(pages, isSource, sourceTotal, ok - 1, n, page + 1, accu + pages[page - 1].body.collection);
    }
  }

  /** A page that fails while `ok` still holds makes the whole search throw,
      whatever the earlier pages held, unless a destination took the page-one
      shortcut before it. */
  lemma {:induction false} PerformSearchFails<R>(pages: seq<Reply<Page<R>>>, isSource: bool, sourceTotal: nat,
                                                 ok: nat, n: nat)
    requires FailsAt(pages, n) && n <= ok
    requires n > 1 && !isSource ==> !Shortcut(pages[0].body.total, sourceTotal)
    ensures PerformSearch(pages, isSource, sourceTotal, ok) == Failed
  {
    if n > 1 {
      PageLoopFails(pages, isSource, sourceTotal, ok - 1, n, 2, [] + pages[0].body.collection);
    }
  }

  /** A destination whose first page reports more pages than the source has
      interactions, or whose source has none, reads as having no interactions
      at all, after a single request. */
  lemma DestinationShortcut<R>(pages: seq<Reply<Page<R>>>, sourceTotal: nat, ok: nat)
    requires |pages| >= 1 && pages[0].Loaded? && pages[0].status == 200 && ok >= 1
    requires Shortcut(pages[0].body.total, sourceTotal)
    ensures PerformSearch(pages, false, sourceTotal, ok) == Fetched([], 1)
  {
  }

  /** The outcome of `getInteractions`: both lists assigned, nothing assigned
      because `ok` was found false, or a rejection. */
  datatype Interactions = Got(faves: seq<Image>, likes: seq<Image>) | Stopped | Threw

  /** What the site answers for each search term: its pages in order. */
  type Pages<R> = string -> seq<Reply<Page<R>>>

  /** `getInteractions`. Faves are fetched before likes, each only when
      syncing that kind is on, and the raw records are normalised by
      `normalise` (the site family's `transformImageResponse`). A failed page
      rejects the whole call. `ok` is read true by the first `ok` checks:
      those of the faves search, then of the likes search, then the final
      one; once a search finds it false, every later check does too. */
  function GetInteractions<R>(
    site: Pages<R>, normalise: R -> Image,
    syncFaves: bool, syncLikes: bool, isSource: bool, tagFilter: string,
    sourceFaves: nat, sourceLikes: nat, ok: nat): (r: Interactions)
    ensures ok == 0 ==> r == Stopped
    ensures !syncFaves && !syncLikes ==> r == if ok > 0 then Got([], []) else Stopped
    ensures r.Got? && !syncFaves ==> r.faves == []
    ensures r.Got? && !syncLikes ==> r.likes == []
    ensures syncFaves && PerformSearch(site(SearchTerm(FavesTerm, isSource, tagFilter)), isSource, sourceFaves, ok).Failed?
            ==> r == Threw
    ensures syncFaves && PerformSearch(site(SearchTerm(FavesTerm, isSource, tagFilter)), isSource, sourceFaves, ok).Cancelled?
            ==> r == Stopped
    ensures var faves := if syncFaves then PerformSearch(site(SearchTerm(FavesTerm, isSource, tagFilter)), isSource, sourceFaves, ok)
                         else Fetched([], 0);
            syncLikes && faves.Fetched? ==>
              var likes := PerformSearch(site(SearchTerm(LikesTerm, isSource, tagFilter)), isSource, sourceLikes, ok - faves.checks);
              && (likes.Failed? ==> r == Threw)
              && (likes.Cancelled? ==> r == Stopped)
    ensures var faves := if syncFaves then PerformSearch(site(SearchTerm(FavesTerm, isSource, tagFilter)), isSource, sourceFaves, ok)
                         else Fetched([], 0);
            faves.Fetched? ==>
              var likes := if syncLikes then PerformSearch(site(SearchTerm(LikesTerm, isSource, tagFilter)), isSource, sourceLikes, ok - faves.checks)
                           else Fetched([], 0);
              likes.Fetched? && ok - faves.checks - likes.checks > 0 ==> r.Got?
    ensures r.Got? && syncFaves ==>
              var faves := PerformSearch(site(SearchTerm(FavesTerm, isSource, tagFilter)), isSource, sourceFaves, ok);
              faves.Fetched? && r.faves == Normalised(faves.items, normalise)
    ensures r.Got? && syncLikes ==>
              var faves := if syncFaves then PerformSearch(site(SearchTerm(FavesTerm, isSource, tagFilter)), isSource, sourceFaves, ok)
                           else Fetched([], 0);
              var likes := PerformSearch(site(SearchTerm(LikesTerm, isSource, tagFilter)), isSource, sourceLikes, ok - faves.checks);
              faves.Fetched? && likes.Fetched? && r.likes == Normalised(likes.items, normalise)
  {
    var faves :=
      if syncFaves then PerformSearch(site(SearchTerm(FavesTerm, isSource, tagFilter)), isSource, sourceFaves, ok)
      else Fetched([], 0);
    match faves
    case Failed => Threw
    case Cancelled => Stopped
    case Fetched(faveItems, faveChecks) =>
      var likes :=
        if syncLikes then PerformSearch(site(SearchTerm(LikesTerm, isSource, tagFilter)), isSource, sourceLikes, ok - faveChecks)
        else Fetched([], 0);
      match likes
      case Failed => Threw
      case Cancelled => Stopped
      case Fetched(likeItems, likeChecks) =>
        if ok - faveChecks - likeChecks == 0 then Stopped
        else Got(Normalised(faveItems, normalise), Normalised(likeItems, normalise))
  }

  /** A full run: both searches page through to their first page without
      interactions and `ok` holds for every check, so both lists are the
      normalised records of all their pages in page order. */
  lemma GetInteractionsCollects<R>(
    site: Pages<R>, normalise: R -> Image, isSource: bool, tagFilter: string,
    sourceFaves: nat, sourceLikes: nat, ok: nat, nf: nat, nl: nat)
    requires RunOfPages(site(SearchTerm(FavesTerm, isSource, tagFilter)), nf)
    requires RunOfPages(site(SearchTerm(LikesTerm, isSource, tagFilter)), nl)
    requires !isSource ==> !Shortcut(site(SearchTerm(FavesTerm, isSource, tagFilter))[0].body.total, sourceFaves)
    requires !isSource ==> !Shortcut(site(SearchTerm(LikesTerm, isSource, tagFilter))[0].body.total, sourceLikes)
    requires ok > nf + nl
    ensures GetInteractions(site, normalise, true, true, isSource, tagFilter, sourceFaves, sourceLikes, ok)
            == Got(Normalised(Collected(site(SearchTerm(FavesTerm, isSource, tagFilter)), nf), normalise),
                   Normalised(Collected(site(SearchTerm(LikesTerm, isSource, tagFilter)), nl), normalise))
  {
    PerformSearchCollects(site(SearchTerm(FavesTerm, isSource, tagFilter)), isSource, sourceFaves, ok, nf);
    PerformSearchCollects(site(SearchTerm(LikesTerm, isSource, tagFilter)), isSource, sourceLikes, ok - nf, nl);
  }

  /** `collection.forEach(this.transformImageResponse, this)`. */
  function Normalised<R>(items: seq<R>, normalise: R -> Image): (r: seq<Image>)
    ensures |r| == |items|
    ensures forall i :: 0 <= i < |items| ==> r[i] == normalise(items[i])
  {
    seq(|items|, i requires 0 <= i < |items| => normalise(items[i]))
  }
}

=== FILE: reconcile.dfy ===
/** `SyncManager.sync`: the destination drops the source images it already
    holds (by `hashCompare`), then looks up each remaining image in turn and
    faves or upvotes the match, reports a possible match, a timeout or a miss. */
module Reconcile {
  import opened Common
  import opened Http
  import opened HashStore
  import opened Token
  import opened Images
  import opened Search
  import opened Matching

  /** `some(destImg => hashCompare(sourceImg, destImg))`. */
  function Synced(x: Image, dst: seq<Image>): (r: bool)
    ensures r <==> exists j :: 0 <= j < |dst| && HashCompare(x, dst[j])
  {
    if |dst| == 0 then false
    else HashCompare(x, dst[0]) || Synced(x, dst[1..])
  }

  /** The source images that the destination does not already hold, in source
      order. */
  function Pending(src: seq<Image>, dst: seq<Image>): (r: seq<Image>)
    ensures |r| <= |src|
    ensures forall x :: x in r <==> x in src && !Synced(x, dst)
  {
    if |src| == 0 then []
    else
      var rest := Pending(src[1..], dst);
      assert forall x :: x in src <==> x == src[0] || x in src[1..];
      if Synced(src[0], dst) then rest else [src[0]] + rest
  }

  /** `filter` keeps the source order: filtering a concatenation filters each
      part and concatenates the results, and a single image is kept exactly
      when the destination does not hold it. Together these fix `Pending`
      on every input. */
  lemma {:induction false} PendingAppend(a: seq<Image>, b: seq<Image>, dst: seq<Image>)
    ensures Pending(a + b, dst) == Pending(a, dst) + Pending(b, dst)
    decreases |a|
  {
    if |a| > 0 {
      assert (a + b)[0] == a[0];
      assert (a + b)[1..] == a[1..] + b;
      PendingAppend(a[1..], b, dst);
      if Synced(a[0], dst) {
        assert Pending(a + b, dst) == Pending(a[1..] + b, dst);
      } else {
        assert Pending(a + b, dst) == [a[0]] + Pending(a[1..] + b, dst);
        assert Pending(a, dst) == [a[0]] + Pending(a[1..], dst);
      }
    } else {
      assert a + b == b;
    }
  }

  lemma PendingSingle(x: Image, dst: seq<Image>)
    ensures Pending([x], dst) == if Synced(x, dst) then [] else [x]
  {
    assert [x][1..] == [];
  }

  /** An image pending at position `k` comes from a source position at or
      after `k`, and pending images keep their relative source order: the
      result is a subsequence of the source. */
  lemma {:induction false} PendingIsSubsequence(src: seq<Image>, dst: seq<Image>)
    ensures Subsequence(Pending(src, dst), src)
    decreases |src|
  {
    if |src| > 0 {
      PendingIsSubsequence(src[1..], dst);
      var rest := Pending(src[1..], dst);
      var m :| Embeds(rest, src[1..], m);
      EmbedsInTail(rest, src, m);
      if Synced(src[0], dst) {
        assert Pending(src, dst) == rest;
        assert Embeds(Pending(src, dst), src, Shifted(m));
      } else {
        assert Pending(src, dst) == [src[0]] + rest;
        assert Embeds(Pending(src, dst), src, [0] + Shifted(m));
      }
    } else {
      assert Embeds(Pending(src, dst), src, []);
    }
  }

  function Shifted(m: seq<nat>): (m': seq<nat>)
    ensures |m'| == |m| && forall k :: 0 <= k < |m| ==> m'[k] == m[k] + 1
  {
    seq(|m|, k requires 0 <= k < |m| => m[k] + 1)
  }

  /** An embedding into the tail of `s` is one into `s` shifted by one. */
  lemma EmbedsShifted(r: seq<Image>, s: seq<Image>, m: seq<nat>)
    requires |s| > 0 && Embeds(r, s[1..], m)
    ensures Embeds(r, s, Shifted(m))
  {
    var m' := Shifted(m);
    forall k | 0 <= k < |m'|
      ensures m'[k] < |s| && s[m'[k]] == r[k]
    {
      assert s[m'[k]] == s[1..][m[k]];
    }
  }

  /** The shifted embedding with the head of `s` put in front embeds
      `[s[0]] + r` into `s`. */
  lemma EmbedsInTail(r: seq<Image>, s: seq<Image>, m: seq<nat>)
    requires |s| > 0 && Embeds(r, s[1..], m)
    ensures Embeds(r, s, Shifted(m))
    ensures Embeds([s[0]] + r, s, [0] + Shifted(m))
  {
    EmbedsShifted(r, s, m);
    var m' := Shifted(m);
    var r2, m2 := [s[0]] + r, [0] + m';
    forall k | 0 <= k < |m2|
      ensures m2[k] < |s| && s[m2[k]] == r2[k]
    {
      if k > 0 {
        assert m2[k] == m'[k - 1] && r2[k] == r[k - 1];
      }
    }
    forall k, l | 0 <= k < l < |m2|
      ensures m2[k] < m2[l]
    {
      assert m2[l] == m'[l - 1];
      if k > 0 {
        assert m2[k] == m'[k - 1];
      }
    }
  }

  /** `m` maps each position of `r` to a position of `s` holding the same
      image, strictly increasingly. */
  predicate Embeds(r: seq<Image>, s: seq<Image>, m: seq<nat>) {
    && |m| == |r|
    && (forall k :: 0 <= k < |m| ==> m[k] < |s| && s[m[k]] == r[k])
    && (forall k, l :: 0 <= k < l < |m| ==> m[k] < m[l])
  }

  ghost predicate Subsequence(r: seq<Image>, s: seq<Image>) {
    exists m :: Embeds(r, s, m)
  }

  /** With nothing on the destination, every source image is pending. */
  lemma {:induction false} PendingAgainstNothing(src: seq<Image>)
    ensures Pending(src, []) == src
  {
    if |src| > 0 {
      PendingAgainstNothing(src[1..]);
      assert src == [src[0]] + src[1..];
    }
  }

  /** When every source image has a hash-equal counterpart on the
      destination, nothing is pending. */
  lemma {:induction false} PendingWhenAllSynced(src: seq<Image>, dst: seq<Image>)
    requires forall i :: 0 <= i < |src| ==> Synced(src[i], dst)
    ensures Pending(src, dst) == []
  {
    if |src| > 0 {
      PendingWhenAllSynced(src[1..], dst);
    }
  }

  /** A queued image with the interaction to apply to it. */
  datatype Queued = Queued(image: Image, kind: Kind)

  function Tagged(xs: seq<Image>, kind: Kind): (q: seq<Queued>)
    ensures |q| == |xs|
    ensures forall i :: 0 <= i < |xs| ==> q[i] == Queued(xs[i], kind)
  {
    seq(|xs|, i requires 0 <= i < |xs| => Queued(xs[i], kind))
  }

  /** The processing queue of `sync`: pending faves, then pending likes. */
  function BuildQueue(srcFaves: seq<Image>, srcLikes: seq<Image>,
                      dstFaves: seq<Image>, dstLikes: seq<Image>): (q: seq<Queued>)
    ensures forall e :: e in q <==>
              || (e.kind == Fave && e.image in srcFaves && !Synced(e.image, dstFaves))
              || (e.kind == Like && e.image in srcLikes && !Synced(e.image, dstLikes))
    ensures forall i, j :: 0 <= i < j < |q| && q[j].kind == Fave ==> q[i].kind == Fave
    ensures |q| <= |srcFaves| + |srcLikes|
    ensures q == Tagged(Pending(srcFaves, dstFaves), Fave) + Tagged(Pending(srcLikes, dstLikes), Like)
  {
    var faves := Tagged(Pending(srcFaves, dstFaves), Fave);
    var likes := Tagged(Pending(srcLikes, dstLikes), Like);
    var q := faves + likes;
    assert forall e :: e in faves <==> e.kind == Fave && e.image in Pending(srcFaves, dstFaves) by {
      forall e: Queued | e in faves ensures e.kind == Fave && e.image in Pending(srcFaves, dstFaves) {
        var i :| 0 <= i < |faves| && faves[i] == e;
      }
      forall e: Queued | e.kind == Fave && e.image in Pending(srcFaves, dstFaves) ensures e in faves {
        var i :| 0 <= i < |Pending(srcFaves, dstFaves)| && Pending(srcFaves, dstFaves)[i] == e.image;
        assert faves[i] == e;
      }
    }
    assert forall e :: e in likes <==> e.kind == Like && e.image in Pending(srcLikes, dstLikes) by {
      forall e: Queued | e in likes ensures e.kind == Like && e.image in Pending(srcLikes, dstLikes) {
        var i :| 0 <= i < |likes| && likes[i] == e;
      }
      forall e: Queued | e.kind == Like && e.image in Pending(srcLikes, dstLikes) ensures e in likes {
        var i :| 0 <= i < |Pending(srcLikes, dstLikes)| && Pending(srcLikes, dstLikes)[i] == e.image;
        assert likes[i] == e;
      }
    }
    q
  }

  /** A destination whose interaction fetch threw keeps its empty lists, so
      its sync queues every source image. */
  lemma FailedFetchQueuesEverything(srcFaves: seq<Image>, srcLikes: seq<Image>)
    ensures BuildQueue(srcFaves, srcLikes, [], []) == Tagged(srcFaves, Fave) + Tagged(srcLikes, Like)
  {
    PendingAgainstNothing(srcFaves);
    PendingAgainstNothing(srcLikes);
  }

  /** A destination that already holds a hash-equal copy of every source fave
      and like gets an empty queue. */
  lemma SyncedSourceQueuesNothing(srcFaves: seq<Image>, srcLikes: seq<Image>,
                                  dstFaves: seq<Image>, dstLikes: seq<Image>)
    requires forall i :: 0 <= i < |srcFaves| ==> Synced(srcFaves[i], dstFaves)
    requires forall i :: 0 <= i < |srcLikes| ==> Synced(srcLikes[i], dstLikes)
    ensures BuildQueue(srcFaves, srcLikes, dstFaves, dstLikes) == []
  {
    PendingWhenAllSynced(srcFaves, dstFaves);
    PendingWhenAllSynced(srcLikes, dstLikes);
  }

  /** What `sync` does with the result of `findImage`. */
  datatype Decision = AlreadyDone | Apply(id: Id) | Suspect(id: Id) | LookupTimedOut | NotFound

  /** The branches of `sync`, in their order: a hash match that already
      carries the interaction is skipped, another hash match is applied, a
      match by reverse search is only reported, and without an id the result
      is a timeout or a miss. */
  function Decide(kind: Kind, f: Found): (d: Decision)
    ensures d.AlreadyDone? <==> Present(f.id) && f.hashMatch && f.flags.Has(kind)
    ensures d.Apply? <==> Present(f.id) && f.hashMatch && !f.flags.Has(kind)
    ensures d.Suspect? <==> Present(f.id) && !f.hashMatch
    ensures d.LookupTimedOut? <==> !Present(f.id) && f.timeout
    ensures d.Apply? || d.Suspect? ==> Some(d.id) == f.id
  {
    if Present(f.id) && f.hashMatch then
      if f.flags.Has(kind) then AlreadyDone else Apply(f.id.value)
    else if Present(f.id) then Suspect(f.id.value)
    else if f.timeout then LookupTimedOut
    else NotFound
  }

  /** What one processed queue item leaves in the log. */
  datatype Outcome = AlreadySynced | Imported(dest: Id) | Refused(dest: Id) | Suspected(dest: Id) | TimedOutItem | Missing

  datatype LogEntry = LogEntry(host: string, source: Id, kind: Kind, outcome: Outcome)

  /** A report record `{sourceHost, source, dest}` of a possible match. */
  datatype SuspectRecord = SuspectRecord(sourceHost: string, source: Id, dest: Id)

  datatype TimeoutRecord = TimeoutRecord(id: Id, host: string)

  datatype Tally = Tally(imported: nat, notFound: nat, suspected: seq<SuspectRecord>)

  /** The manager's `report`; its `new` counters are called `imported` here. */
  datatype Report = Report(faves: Tally, likes: Tally, timeouts: seq<TimeoutRecord>)

  const EmptyTally := Tally(0, 0, [])
  const EmptyReport := Report(EmptyTally, EmptyTally, [])

  function TallyOf(rep: Report, kind: Kind): Tally {
    if kind == Fave then rep.faves else rep.likes
  }

  function WithTally(rep: Report, kind: Kind, t: Tally): Report {
    if kind == Fave then rep.(faves := t) else rep.(likes := t)
  }

  /** How one log entry updates the report. */
  function Record(rep: Report, e: LogEntry): Report {
    var t := TallyOf(rep, e.kind);
    match e.outcome
    case Imported(_) => WithTally(rep, e.kind, t.(imported := t.imported + 1))
    case Missing => WithTally(rep, e.kind, t.(notFound := t.notFound + 1))
    case Suspected(d) => WithTally(rep, e.kind, t.(suspected := t.suspected + [SuspectRecord(e.host, e.source, d)]))
    case TimedOutItem => rep.(timeouts := rep.timeouts + [TimeoutRecord(e.source, e.host)])
    case _ => rep
  }

  /** The report a log adds up to. */
  function ReportOf(log: seq<LogEntry>): Report {
    if |log| == 0 then EmptyReport else Record(ReportOf(log[..|log| - 1]), log[|log| - 1])
  }

  /** An interaction request: the callback used, the destination id and
      whether the site answered 200. */
  datatype Request = Request(kind: Kind, id: Id, accepted: bool)

  function RequestOf(e: LogEntry): seq<Request> {
    match e.outcome
    case Imported(d) => [Request(e.kind, d, true)]
    case Refused(d) => [Request(e.kind, d, false)]
    case _ => []
  }

  /** The interaction requests a log records, in order. */
  function RequestsOf(log: seq<LogEntry>): seq<Request> {
    if |log| == 0 then [] else RequestsOf(log[..|log| - 1]) + RequestOf(log[|log| - 1])
  }

  /** The number of entries of one kind with one of the two counted
      outcomes: `imported` counts successful requests, `notFound` misses. */
  function CountImported(log: seq<LogEntry>, kind: Kind): nat {
    if |log| == 0 then 0
    else CountImported(log[..|log| - 1], kind) + if log[|log| - 1].kind == kind && log[|log| - 1].outcome.Imported? then 1 else 0
  }

  function CountMissing(log: seq<LogEntry>, kind: Kind): nat {
    if |log| == 0 then 0
    else CountMissing(log[..|log| - 1], kind) + if log[|log| - 1].kind == kind && log[|log| - 1].outcome.Missing? then 1 else 0
  }

  /** The report's counters count the log's entries: `new` counts the
      requests the destination accepted and `notFound` the misses, per
      kind. */
  lemma {:induction false} ReportCounts(log: seq<LogEntry>, kind: Kind)
    ensures TallyOf(ReportOf(log), kind).imported == CountImported(log, kind)
    ensures TallyOf(ReportOf(log), kind).notFound == CountMissing(log, kind)
  {
    if |log| > 0 {
      ReportCounts(log[..|log| - 1], kind);
    }
  }

  /** Everything the report counts or lists. */
  function Total(rep: Report): nat {
    rep.faves.imported + rep.faves.notFound + |rep.faves.suspected|
    + rep.likes.imported + rep.likes.notFound + |rep.likes.suspected|
    + |rep.timeouts|
  }

  /** The entries that land in a report bucket: all but the skipped items and
      the requests the destination refused. */
  function CountReported(log: seq<LogEntry>): nat {
    if |log| == 0 then 0
    else CountReported(log[..|log| - 1])
         + if log[|log| - 1].outcome.AlreadySynced? || log[|log| - 1].outcome.Refused? then 0 else 1
  }

  /** Each entry of the log lands in at most one bucket of the report, and
      every bucket entry comes from one log entry. */
  lemma {:induction false} ReportTotal(log: seq<LogEntry>)
    ensures Total(ReportOf(log)) == CountReported(log)
  {
    if |log| > 0 {
      ReportTotal(log[..|log| - 1]);
    }
  }

  /** The state `sync` works on: the report, the interaction requests sent,
      the log, the hash store and the manager's token. */
  datatype State = State(report: Report, requests: seq<Request>, log: seq<LogEntry>, store: Store, token: Token)

  /** The report and the requests are those the log records. */
  predicate Consistent(st: State) {
    st.report == ReportOf(st.log) && st.requests == RequestsOf(st.log)
  }

  function Append(st: State, e: LogEntry): (st': State)
    ensures Consistent(st) ==> Consistent(st')
    ensures st'.log == st.log + [e]
    ensures st'.store == st.store && st'.token == st.token
  {
    var log := st.log + [e];
    assert log[..|log| - 1] == st.log;
    st.(report := Record(st.report, e), requests := st.requests + RequestOf(e), log := log)
  }

  /** How the interaction request ends: the site answers with a status, or
      the request throws (a rejected `fetch`, an unreadable error body). */
  datatype ApplyReply = Answered(status: int) | Threw(failure: Failure)

  /** What the outside world answers while one queue item is processed: the
      requests of `findImage`, the current time, the front page's token for
      `getToken` (with the time that fetch completes) and the interaction
      request. */
  datatype ItemEnv = ItemEnv(remote: Remote, now: int, tokenPage: Option<string>, tokenFetchedAt: int, reply: ApplyReply)

  /** An error that rejects `sync`, with the state reached when it was thrown. */
  datatype Abort = Abort(failure: Failure, state: State)

  /** `setClientHash` for a hash computed during `findImage`. */
  function Remember(store: Store, img: Image, stored: Option<string>, now: int): (s': Store)
    ensures stored.None? ==> s' == store
    ensures stored.Some? ==> GetClientHash(s', img.host, img.id) == stored
    ensures forall h, i :: h != img.host || i != img.id ==> GetClientHash(s', h, i) == GetClientHash(store, h, i)
  {
    if stored.Some? then SetClientHash(store, img.host, img.id, stored.value, now) else store
  }

  /** The log entry of a processed item agrees with what `findImage` found
      and, for an applied match, with the destination's answer to the
      interaction request: imported exactly on status 200. */
  predicate Agrees(d: Decision, reply: ApplyReply, o: Outcome) {
    match d
    case AlreadyDone => o.AlreadySynced?
    case Apply(id) => reply.Answered? && o == if reply.status == 200 then Imported(id) else Refused(id)
    case Suspect(id) => o == Suspected(id)
    case LookupTimedOut => o.TimedOutItem?
    case NotFound => o.Missing?
  }

  /** The interaction request of an applied hash match, preceded by
      `getToken`; the request counts as imported only on status 200. */
  function ApplyTo(item: Queued, id: Id, env: ItemEnv, st: State): (r: Result<State, Abort>)
    ensures r.Ok? && Consistent(st) ==> Consistent(r.value)
    ensures r.Ok? ==> env.reply.Answered?
    ensures r.Ok? ==> r.value.log == st.log + [LogEntry(item.image.host, item.image.id, item.kind,
                                                         if env.reply.status == 200 then Imported(id) else Refused(id))]
    ensures r.Err? <==> GetToken(st.token, env.now, env.tokenPage, env.tokenFetchedAt).Err? || env.reply.Threw?
    ensures r.Ok? ==> r.value.store == st.store
    ensures Valid(st.token) ==> Valid(if r.Ok? then r.value.token else r.error.state.token)
    ensures var g := GetToken(st.token, env.now, env.tokenPage, env.tokenFetchedAt);
            g.Ok? ==> (if r.Ok? then r.value.token else r.error.state.token) == g.value.1
    ensures var g := GetToken(st.token, env.now, env.tokenPage, env.tokenFetchedAt);
            g.Err? ==> r == Err(Abort(g.error, st))
    ensures r.Err? ==> (env.tokenPage.None? && r.error.failure == TypeError)
                       || (env.reply.Threw? && r.error.failure == env.reply.failure)
  {
    match GetToken(st.token, env.now, env.tokenPage, env.tokenFetchedAt)
    case Err(e) => Err(Abort(e, st))
    case Ok((_, token)) =>
      var st1 := st.(token := token);
      match env.reply
      case Threw(e) => Err(Abort(e, st1))
      case Answered(status) =>
        var outcome := if status == 200 then Imported(id) else Refused(id);
        Ok(Append(st1, LogEntry(item.image.host, item.image.id, item.kind, outcome)))
  }

  /** How an item is looked up on the destination: `findImage` of its site
      family, given what the outside world answers for that item. */
  type Lookup = (Queued, ItemEnv) -> Result<Found, Failure>

  function FindImageOn(v: Variant, useFallback: bool): Lookup {
    (item: Queued, env: ItemEnv) => FindImageFor(v, item.image, useFallback, env.remote)
  }

  /** The entry `e` records the queue item `item`, and its outcome is the one
      that what `findImage` found, and the destination's answer in `env`, lead
      to. */
  predicate Matches(item: Queued, found: Result<Found, Failure>, env: ItemEnv, e: LogEntry) {
    && e.host == item.image.host && e.source == item.image.id && e.kind == item.kind
    && found.Ok? && Agrees(Decide(item.kind, found.value), env.reply, e.outcome)
  }

  /** Entries `from` up to `to` of `log` record the queue items at the same
      positions, each with the outcome its lookup leads to. Stated by
      recursion so that a run's proof unfolds it one entry at a time. */
  predicate Records(queue: seq<Queued>, lookup: Lookup, env: nat -> ItemEnv, log: seq<LogEntry>, from: nat, to: nat)
    requires from <= to <= |queue| && to <= |log|
    decreases (to as int) - (from as int)
  {
    from == to
    || (Matches(queue[from], lookup(queue[from], env(from)), env(from), log[from]) && Records(queue, lookup, env, log, from + 1, to))
  }

  /** Each entry in a recorded stretch of the log matches its queue item. */
  lemma {:induction false} RecordsAt(queue: seq<Queued>, lookup: Lookup, env: nat -> ItemEnv, log: seq<LogEntry>,
                                     from: nat, to: nat, j: nat)
    requires from <= to <= |queue| && to <= |log|
    requires Records(queue, lookup, env, log, from, to)
    requires from <= j < to
    ensures Matches(queue[j], lookup(queue[j], env(j)), env(j), log[j])
    decreases j - from
  {
    if j > from {
      RecordsAt(queue, lookup, env, log, from + 1, to, j);
    }
  }

  /** What may reject `sync` at an item, and with which error: its
      `findImage` throws, or for an applied match `getToken` finds no token
      on the page (a TypeError) or the interaction request throws. */
  predicate AbortsOn(item: Queued, found: Result<Found, Failure>, env: ItemEnv, failure: Failure) {
    || (found.Err? && failure == found.error)
    || (&& found.Ok? && Decide(item.kind, found.value).Apply?
        && ((env.tokenPage.None? && failure == TypeError) || (env.reply.Threw? && failure == env.reply.failure)))
  }

  /** One iteration of the `sync` loop after the `ok` check, given what
      `findImage` did. */
  function Handle(item: Queued, found: Result<Found, Failure>, env: ItemEnv, st: State): (r: Result<State, Abort>)
    ensures r.Ok? && Consistent(st) ==> Consistent(r.value)
    ensures r.Ok? ==> |r.value.log| == |st.log| + 1 && forall k :: 0 <= k < |st.log| ==> r.value.log[k] == st.log[k]
    ensures r.Ok? ==> Matches(item, found, env, r.value.log[|st.log|])
    ensures found.Err? ==> r == Err(Abort(found.error, st))
    ensures r.Err? ==> AbortsOn(item, found, env, r.error.failure)
    ensures r.Err? && found.Ok? ==> Decide(item.kind, found.value).Apply?
    ensures r.Ok? && !Decide(item.kind, found.value).Apply? ==> r.value.requests == st.requests && r.value.token == st.token
    ensures found.Ok? && Decide(item.kind, found.value).AlreadyDone? ==> r.Ok? && r.value.report == st.report
    ensures r.Err? ==> r.error.state.log == st.log && r.error.state.report == st.report
                       && r.error.state.requests == st.requests
    ensures found.Ok? && found.value.stored.Some? ==>
              GetClientHash((if r.Ok? then r.value else r.error.state).store, item.image.host, item.image.id)
              == found.value.stored
    ensures Valid(st.token) ==> Valid(if r.Ok? then r.value.token else r.error.state.token)
    ensures var g := GetToken(st.token, env.now, env.tokenPage, env.tokenFetchedAt);
            found.Ok? && Decide(item.kind, found.value).Apply? && g.Ok? ==>
              (if r.Ok? then r.value.token else r.error.state.token) == g.value.1
  {
    match found
    case Err(e) => Err(Abort(e, st))
    case Ok(f) =>
      var st1 := st.(store := Remember(st.store, item.image, f.stored, env.now));
      match Decide(item.kind, f)
      case AlreadyDone => Ok(Append(st1, LogEntry(item.image.host, item.image.id, item.kind, AlreadySynced)))
      case Suspect(id) => Ok(Append(st1, LogEntry(item.image.host, item.image.id, item.kind, Suspected(id))))
      case LookupTimedOut => Ok(Append(st1, LogEntry(item.image.host, item.image.id, item.kind, TimedOutItem)))
      case NotFound => Ok(Append(st1, LogEntry(item.image.host, item.image.id, item.kind, Missing)))
      case Apply(id) =>
        var r := ApplyTo(item, id, env, st1);
        assert r.Ok? ==> r.value.log[..|st.log|] == st.log;
        r
  }

  /** How `sync` ends: after the whole queue, by returning because `ok` was
      found false, or rejected by an error. */
  datatype End = Completed | Cancelled | Aborted(failure: Failure)

  datatype SyncRun = SyncRun(state: State, processed: nat, end: End)

  /** The `sync` loop from queue position `i`; item `j` meets the world
      `env(j)`. `ok` is read true by the next `ok` checks only. */
  function RunFrom(queue: seq<Queued>, lookup: Lookup, env: nat -> ItemEnv,
                   ok: nat, i: nat, st: State): (r: SyncRun)
    requires i <= |queue| && |st.log| == i
    ensures Consistent(st) ==> Consistent(r.state)
    ensures i <= r.processed <= |queue| && |r.state.log| == r.processed
    ensures forall k :: 0 <= k < i ==> r.state.log[k] == st.log[k]
    ensures Records(queue, lookup, env, r.state.log, i, r.processed)
    ensures r.end.Completed? <==> r.processed == |queue|
    ensures !r.end.Aborted? ==> r.processed == if i + ok < |queue| then i + ok else |queue|
    ensures r.end.Aborted? ==> r.processed < i + ok
    ensures r.end.Aborted? ==>
              && r.processed < |queue|
              && AbortsOn(queue[r.processed], lookup(queue[r.processed], env(r.processed)), env(r.processed), r.end.failure)
    ensures r.end.Cancelled? ==> r.processed == i + ok
    ensures r.end.Aborted? ==>
              var found := lookup(queue[r.processed], env(r.processed));
              found.Ok? && found.value.stored.Some? ==>
                GetClientHash(r.state.store, queue[r.processed].image.host, queue[r.processed].image.id)
                == found.value.stored
    decreases |queue| - i
  {
    if i == |queue| then SyncRun(st, i, Completed)
    else if ok == 0 then SyncRun(st, i, Cancelled)
    else
      match Handle(queue[i], lookup(queue[i], env(i)), env(i), st)
      case Err(a) => SyncRun(a.state, i, Aborted(a.failure))
      case Ok(st') =>
        var r := RunFrom(queue, lookup, env, ok - 1, i + 1, st');
        assert r.state.log[i] == st'.log[i];
        r
  }

  /** The token's counter stays within the reuse bound throughout a run. */
  lemma {:induction false} RunKeepsTokenValid(queue: seq<Queued>, lookup: Lookup, env: nat -> ItemEnv,
                                              ok: nat, i: nat, st: State)
    requires i <= |queue| && |st.log| == i && Valid(st.token)
    ensures Valid(RunFrom(queue, lookup, env, ok, i, st).state.token)
    decreases |queue| - i
  {
    if i < |queue| && ok > 0 {
      var h := Handle(queue[i], lookup(queue[i], env(i)), env(i), st);
      if h.Ok? {
        RunKeepsTokenValid(queue, lookup, env, ok - 1, i + 1, h.value);
      }
    }
  }

  /** `sync(sourceFaves, sourceLikes)` on a destination holding `dstFaves` and
      `dstLikes`, starting from an empty report with the manager's hash store
      and token. */
  function Sync(srcFaves: seq<Image>, srcLikes: seq<Image>, dstFaves: seq<Image>, dstLikes: seq<Image>,
                v: Variant, useFallback: bool, env: nat -> ItemEnv, ok: nat, store: Store, token: Token): (r: SyncRun)
    ensures Consistent(r.state)
    ensures r.processed <= |BuildQueue(srcFaves, srcLikes, dstFaves, dstLikes)| && |r.state.log| == r.processed
    ensures Records(BuildQueue(srcFaves, srcLikes, dstFaves, dstLikes), FindImageOn(v, useFallback), env,
                    r.state.log, 0, r.processed)
    ensures r.end.Completed? <==> r.processed == |BuildQueue(srcFaves, srcLikes, dstFaves, dstLikes)|
    ensures !r.end.Aborted? ==>
              r.processed == var n := |BuildQueue(srcFaves, srcLikes, dstFaves, dstLikes)|; if ok < n then ok else n
    ensures r.end.Cancelled? ==> r.processed == ok
    ensures r.end.Aborted? ==>
              var queue := BuildQueue(srcFaves, srcLikes, dstFaves, dstLikes);
              && r.processed < ok && r.processed < |queue|
              && AbortsOn(queue[r.processed], FindImageOn(v, useFallback)(queue[r.processed], env(r.processed)),
                          env(r.processed), r.end.failure)
  {
    var queue := BuildQueue(srcFaves, srcLikes, dstFaves, dstLikes);
    var init := State(EmptyReport, [], [], store, token);
    RunFrom(queue, FindImageOn(v, useFallback), env, ok, 0, init)
  }

  /** Every interaction request a log records comes from an entry of the same
      kind whose outcome names the requested id. */
  lemma {:induction false} RequestSources(log: seq<LogEntry>, q: Request)
    requires q in RequestsOf(log)
    ensures exists j :: 0 <= j < |log| && log[j].kind == q.kind && (log[j].outcome == Imported(q.id) || log[j].outcome == Refused(q.id))
  {
    var last := |log| - 1;
    if q in RequestsOf(log[..last]) {
      RequestSources(log[..last], q);
      var j :| 0 <= j < last && log[..last][j].kind == q.kind
               && (log[..last][j].outcome == Imported(q.id) || log[..last][j].outcome == Refused(q.id));
      assert log[j] == log[..last][j];
    } else {
      assert q in RequestOf(log[last]);
    }
  }

  /** In a log whose entries record a queue prefix, every request comes from
      an item whose lookup found an exact (hash) match lacking that
      interaction. */
  lemma LogAppliesOnlyHashMatches(queue: seq<Queued>, lookup: Lookup, env: nat -> ItemEnv, log: seq<LogEntry>, q: Request)
    requires |log| <= |queue| && Records(queue, lookup, env, log, 0, |log|)
    requires q in RequestsOf(log)
    ensures exists j :: 0 <= j < |log|
                        && queue[j].kind == q.kind && lookup(queue[j], env(j)).Ok?
                        && Decide(q.kind, lookup(queue[j], env(j)).value) == Apply(q.id)
  {
    RequestSources(log, q);
    var j :| 0 <= j < |log| && log[j].kind == q.kind
             && (log[j].outcome == Imported(q.id) || log[j].outcome == Refused(q.id));
    RecordsAt(queue, lookup, env, log, 0, |log|, j);
  }

  /** A run from a consistent state sends a fave or upvote request only for
      a queue item whose lookup found an exact (hash) match lacking that
      interaction: a possible match from the reverse search is never
      applied. */
  lemma RunAppliesOnlyHashMatches(queue: seq<Queued>, lookup: Lookup, env: nat -> ItemEnv, ok: nat, st: State)
    requires |st.log| == 0 && Consistent(st)
    ensures var r := RunFrom(queue, lookup, env, ok, 0, st);
            forall q :: q in r.state.requests ==>
              exists j :: 0 <= j < r.processed
                          && queue[j].kind == q.kind && lookup(queue[j], env(j)).Ok?
                          && Decide(q.kind, lookup(queue[j], env(j)).value) == Apply(q.id)
  {
    var r := RunFrom(queue, lookup, env, ok, 0, st);
    forall q | q in r.state.requests
      ensures exists j :: 0 <= j < r.processed
                          && queue[j].kind == q.kind && lookup(queue[j], env(j)).Ok?
                          && Decide(q.kind, lookup(queue[j], env(j)).value) == Apply(q.id)
    {
      LogAppliesOnlyHashMatches(queue, lookup, env, r.state.log, q);
    }
  }

  /** The same for `sync`: every request it sends is for an item on which
      `findImage` of this destination found a hash match without the
      interaction. */
  lemma SyncAppliesOnlyHashMatches(srcFaves: seq<Image>, srcLikes: seq<Image>, dstFaves: seq<Image>, dstLikes: seq<Image>,
                                   v: Variant, useFallback: bool, env: nat -> ItemEnv, ok: nat, store: Store, token: Token)
    ensures var queue := BuildQueue(srcFaves, srcLikes, dstFaves, dstLikes);
            var run := Sync(srcFaves, srcLikes, dstFaves, dstLikes, v, useFallback, env, ok, store, token);
            forall q :: q in run.state.requests ==>
              exists j :: 0 <= j < run.processed
                          && queue[j].kind == q.kind
                          && FindImageOn(v, useFallback)(queue[j], env(j)).Ok?
                          && Decide(q.kind, FindImageOn(v, useFallback)(queue[j], env(j)).value) == Apply(q.id)
  {
    RunAppliesOnlyHashMatches(BuildQueue(srcFaves, srcLikes, dstFaves, dstLikes), FindImageOn(v, useFallback),
                              env, ok, State(EmptyReport, [], [], store, token));
  }

  /** Items whose lookup finds the interaction already in place leave the
      report, the requests and the token as they were. */
  lemma {:induction false} RunOverSyncedItems(queue: seq<Queued>, lookup: Lookup, env: nat -> ItemEnv,
                                              ok: nat, i: nat, st: State)
    requires i <= |queue| && |st.log| == i
    requires forall j :: i <= j < |queue| ==>
               lookup(queue[j], env(j)).Ok? && Decide(queue[j].kind, lookup(queue[j], env(j)).value).AlreadyDone?
    ensures var r := RunFrom(queue, lookup, env, ok, i, st);
            && !r.end.Aborted?
            && r.state.report == st.report && r.state.requests == st.requests && r.state.token == st.token
    decreases |queue| - i
  {
    if i < |queue| && ok > 0 {
      var h := Handle(queue[i], lookup(queue[i], env(i)), env(i), st);
      RunOverSyncedItems(queue, lookup, env, ok - 1, i + 1, h.value);
    }
  }

  /** A destination already holding a hash-equal copy of every source fave and
      like is left untouched: `sync` completes at once with an empty report. */
  lemma SyncWhenAllSynced(srcFaves: seq<Image>, srcLikes: seq<Image>, dstFaves: seq<Image>, dstLikes: seq<Image>,
                          v: Variant, useFallback: bool, env: nat -> ItemEnv, ok: nat, store: Store, token: Token)
    requires forall i :: 0 <= i < |srcFaves| ==> Synced(srcFaves[i], dstFaves)
    requires forall i :: 0 <= i < |srcLikes| ==> Synced(srcLikes[i], dstLikes)
    ensures Sync(srcFaves, srcLikes, dstFaves, dstLikes, v, useFallback, env, ok, store, token)
            == SyncRun(State(EmptyReport, [], [], store, token), 0, Completed)
  {
    SyncedSourceQueuesNothing(srcFaves, srcLikes, dstFaves, dstLikes);
  }
}

=== FILE: search.dfy ===
/** The three kinds of lookup a destination answers: the search by hash
    (`searchByHash`), the Booru-on-Rails lookup by original location
    (`searchByApi`) and the reverse image search with its candidate selection
    (`searchByImage` of Philomena sites). */
module Search {
  import opened Common
  import opened Text
  import opened Http
  import opened Images

  /** One entry of the `interactions` list of a search response. */
  datatype Interaction = Interaction(imageId: Id, interactionType: string, value: string)

  /** The body of a search response: the reported total, the ids of the
      returned images in order, and the user's interactions with them. */
  datatype SearchBody = SearchBody(total: int, ids: seq<Id>, interactions: seq<Interaction>)

  /** Whether the destination already carries each kind of interaction on an
      image. */
  datatype Flags = Flags(fave: bool, like: bool) {
    function Has(kind: Kind): bool {
      match kind
      case Fave => fave
      case Like => like
    }
  }

  const NoFlags := Flags(false, false)

  /** `inter[imageIdProp] == destId` together with the test of the
      interaction's type (and, for a vote, its value). */
  predicate Marks(inter: Interaction, destId: Option<Id>, kind: Kind) {
    && Some(inter.imageId) == destId
    && match kind
       case Fave => inter.interactionType == "faved"
       case Like => inter.interactionType == "voted" && inter.value == "up"
  }

  /** `interactions.some(...)` for one kind. */
  function HasInteraction(xs: seq<Interaction>, destId: Option<Id>, kind: Kind): (r: bool)
    ensures r <==> exists i :: 0 <= i < |xs| && Marks(xs[i], destId, kind)
  {
    if |xs| == 0 then false
    else if Marks(xs[0], destId, kind) then true
    else
      var rest := HasInteraction(xs[1..], destId, kind);
      assert forall i :: 1 <= i < |xs| ==> xs[i] == xs[1..][i - 1];
      rest
  }

  /** The `interaction` object built from a search response. */
  function FlagsFor(xs: seq<Interaction>, destId: Option<Id>): (f: Flags)
    ensures f.fave <==> exists i :: 0 <= i < |xs| && Marks(xs[i], destId, Fave)
    ensures f.like <==> exists i :: 0 <= i < |xs| && Marks(xs[i], destId, Like)
  {
    Flags(HasInteraction(xs, destId, Fave), HasInteraction(xs, destId, Like))
  }

  /** With no image found, no interaction can be attributed to it. */
  lemma NoIdNoFlags(xs: seq<Interaction>)
    ensures FlagsFor(xs, None) == NoFlags
  {
  }

  /** A hash slot as string concatenation renders it. */
  function HashText(h: Js<string>): string {
    match h
    case Val(s) => s
    case Null => "null"
    case Undefined => "undefined"
  }

  /** The search items for a list of hashes: for each hash, in order, an
      `orig_sha512_hash:` item followed by a `sha512_hash:` item. */
  function HashTerms(hashes: seq<Js<string>>): (r: seq<string>)
    ensures |r| == 2 * |hashes|
    ensures forall i :: 0 <= i < |hashes| ==>
              r[2 * i] == "orig_sha512_hash:" + HashText(hashes[i])
              && r[2 * i + 1] == "sha512_hash:" + HashText(hashes[i])
  {
    if |hashes| == 0 then []
    else
      var rest := HashTerms(hashes[1..]);
      var r := ["orig_sha512_hash:" + HashText(hashes[0]), "sha512_hash:" + HashText(hashes[0])] + rest;
      assert forall i :: 1 <= i < |hashes| ==> hashes[1..][i - 1] == hashes[i];
      assert forall i :: 1 <= i < |hashes| ==> r[2 * i] == rest[2 * (i - 1)];
      assert forall i :: 1 <= i < |hashes| ==> r[2 * i + 1] == rest[2 * (i - 1) + 1];
      r
  }

  /** The search term of `searchByHash`: the items joined by ` || `. */
  function HashQuery(hashes: seq<Js<string>>): string {
    Join(HashTerms(hashes), " || ")
  }

  /** The lookup with a freshly computed hash asks for it under both hash
      fields. */
  lemma SingleHashQuery(hash: Js<string>)
    ensures HashQuery([hash]) == "orig_sha512_hash:" + HashText(hash) + " || " + "sha512_hash:" + HashText(hash)
  {
    var t := HashTerms([hash]);
    assert t == [t[0]] + [t[1]];
    JoinCons(t[0], [t[1]], " || ");
  }

  /** What a successful hash or location lookup yields. */
  datatype Hit = Hit(destId: Option<Id>, flags: Flags)

  /** `searchByHash` once the request is answered: the first result's id (or
      `null`) and the interaction flags for that id; a failed request is
      thrown. */
  function SearchByHash(reply: Reply<SearchBody>): (r: Result<Hit, Failure>)
    ensures r.Ok? <==> reply.Loaded? && reply.status == 200
    ensures r.Err? ==> r == HandleResponse(reply).PropagateFailure()
    ensures r.Ok? ==> (r.value.destId.None? <==> |reply.body.ids| == 0)
    ensures r.Ok? && |reply.body.ids| > 0 ==> r.value.destId == Some(reply.body.ids[0])
    ensures r.Ok? ==> r.value.flags == FlagsFor(reply.body.interactions, r.value.destId)
  {
    var body :- HandleResponse(reply);
    var destId := if |body.ids| > 0 then Some(body.ids[0]) else None;
    Ok(Hit(destId, FlagsFor(body.interactions, destId)))
  }

  /** The site name and search term of the Booru-on-Rails lookup of an image
      imported from Derpibooru. */
  const DerpibooruHost := "derpibooru.org"

  function LocationQuery(id: Id): string {
    "location:derpibooru && id_at_location:" + Decimal(id)
  }

  /** The location query names the source id, and reading its digits back
      gives that id. */
  lemma LocationQueryNamesId(id: Id)
    ensures var q := LocationQuery(id);
            var p := "location:derpibooru && id_at_location:";
            StartsWith(q, p) && ParseDecimal(q[|p|..]) == id
  {
    var p := "location:derpibooru && id_at_location:";
    var q := LocationQuery(id);
    assert q[..|p|] == p;
    assert q[|p|..] == Decimal(id);
    DecimalRoundTrip(id);
  }

  /** `searchByApi` of Booru-on-Rails sites. Only images from Derpibooru are
      looked up; a lookup failure is thrown, and a positive total with an empty
      result list makes the script read `.id` of `undefined`. */
  function SearchByLocation(img: Image, search: string -> Reply<SearchBody>): (r: Result<Hit, Failure>)
    ensures img.host != DerpibooruHost ==> r == Ok(Hit(None, NoFlags))
    ensures img.host == DerpibooruHost && r.Ok? ==> HandleResponse(search(LocationQuery(img.id))).Ok?
    ensures r.Ok? && r.value.destId.Some? ==>
              && img.host == DerpibooruHost
              && search(LocationQuery(img.id)).Loaded?
              && var body := search(LocationQuery(img.id)).body;
                 body.total > 0 && |body.ids| > 0 && r.value.destId == Some(body.ids[0])
                 && r.value.flags == FlagsFor(body.interactions, r.value.destId)
    ensures r.Ok? && r.value.destId.None? ==> r.value.flags == NoFlags
    ensures r.Err? && r.error.TypeError? ==>
              && search(LocationQuery(img.id)).Loaded?
              && var body := search(LocationQuery(img.id)).body;
                 body.total > 0 && |body.ids| == 0
    ensures img.host == DerpibooruHost ==>
              var reply := search(LocationQuery(img.id));
              && (HandleResponse(reply).Err? ==> r == Err(HandleResponse(reply).error))
              && (reply.Loaded? && reply.status == 200 ==>
                    && (reply.body.total <= 0 ==> r == Ok(Hit(None, NoFlags)))
                    && (reply.body.total > 0 && |reply.body.ids| == 0 ==> r == Err(TypeError))
                    && (reply.body.total > 0 && |reply.body.ids| > 0 ==>
                          r == Ok(Hit(Some(reply.body.ids[0]), FlagsFor(reply.body.interactions, Some(reply.body.ids[0]))))))
  {
    if img.host != DerpibooruHost then Ok(Hit(None, NoFlags))
    else
      var body :- HandleResponse(search(LocationQuery(img.id)));
      if body.total > 0 then
        if |body.ids| == 0 then Err(TypeError)
        else
          var destId := Some(body.ids[0]);
          Ok(Hit(destId, FlagsFor(body.interactions, destId)))
      else Ok(Hit(None, NoFlags))
  }

  /** A reverse-search result: its id, the `duplicate_of` and
      `deletion_reason` slots, and the similarity score the script computes
      for it (kept abstract). */
  datatype Candidate = Candidate(id: Id, duplicateOf: Js<Id>, deletionReason: Js<string>, score: real)

  datatype ReverseBody = ReverseBody(images: seq<Candidate>)

  /** The filter keeps a candidate only when both slots are strictly `null`. */
  predicate Usable(c: Candidate) {
    c.duplicateOf == Null && c.deletionReason == Null
  }

  /** `images.filter(...)`: the usable candidates, in their order. */
  function Usables(cs: seq<Candidate>): (r: seq<Candidate>)
    ensures |r| <= |cs|
    ensures forall c :: c in r <==> c in cs && Usable(c)
  {
    if |cs| == 0 then []
    else
      var rest := Usables(cs[1..]);
      assert forall c :: c in cs <==> c == cs[0] || c in cs[1..];
      if Usable(cs[0]) then [cs[0]] + rest else rest
  }

  /** Filtering distributes over concatenation, so the order of the results
      is kept. */
  lemma {:induction false} UsablesAppend(a: seq<Candidate>, b: seq<Candidate>)
    ensures Usables(a + b) == Usables(a) + Usables(b)
    decreases |a|
  {
    if |a| > 0 {
      assert (a + b)[1..] == a[1..] + b;
      UsablesAppend(a[1..], b);
    } else {
      assert a + b == b;
    }
  }

  /** `k` holds a greatest score, and every later candidate scores strictly
      less: what `reduce` keeps when it replaces the best so far unless the best
      so far is strictly greater. */
  predicate LastBest(cs: seq<Candidate>, k: nat) {
    && k < |cs|
    && (forall j :: 0 <= j < |cs| ==> cs[j].score <= cs[k].score)
    && (forall j :: k < j < |cs| ==> cs[j].score < cs[k].score)
  }

  /** `reduce` from index `i` on, `best` being the accumulator so far. */
  function ReduceFrom(cs: seq<Candidate>, best: nat, i: nat): (k: nat)
    requires best < i <= |cs|
    requires LastBest(cs[..i], best)
    ensures LastBest(cs, k)
    decreases |cs| - i
  {
    if i == |cs| then
      assert cs[..i] == cs;
      best
    else
      var next := if cs[best].score > cs[i].score then best else i;
      assert cs[..i + 1][..i] == cs[..i];
      ReduceFrom(cs, next, i + 1)
  }

  /** The index `results.reduce(...)` ends on. */
  function BestIndex(cs: seq<Candidate>): (k: nat)
    requires |cs| >= 1
    ensures LastBest(cs, k)
  {
    ReduceFrom(cs, 0, 1)
  }

  /** Only one index can be the last one holding the greatest score. */
  lemma LastBestUnique(cs: seq<Candidate>, k: nat, m: nat)
    requires LastBest(cs, k) && LastBest(cs, m)
    ensures k == m
  {
    assert cs[k].score == cs[m].score;
  }

  /** The branch on the number of usable candidates: none gives `null`, one
      gives its id, several give the id `reduce` ends on. */
  function Select(us: seq<Candidate>): (r: Option<Id>)
    ensures r.None? <==> |us| == 0
    ensures r.Some? ==> exists k: nat :: LastBest(us, k) && us[k].id == r.value
  {
    if |us| == 0 then None
    else if |us| == 1 then
      assert LastBest(us, 0);
      Some(us[0].id)
    else
      var k := BestIndex(us);
      Some(us[k].id)
  }

  /** `searchByImage` of Philomena sites once the request is answered: the
      usable candidates decide; none gives `null`, one gives its id, several
      give the id of the last one with the greatest score. A failed request is
      thrown. */
  function SearchByImage(reply: Reply<ReverseBody>): (r: Result<Option<Id>, Failure>)
    ensures r.Ok? <==> reply.Loaded? && reply.status == 200
    ensures r.Err? ==> r == HandleResponse(reply).PropagateFailure()
    ensures r.Ok? ==> (r.value.None? <==> forall c :: c in reply.body.images ==> !Usable(c))
    ensures r.Ok? && r.value.Some? ==>
              var us := Usables(reply.body.images);
              exists k: nat :: LastBest(us, k) && us[k].id == r.value.value
  {
    var body :- HandleResponse(reply);
    var us := Usables(body.images);
    assert |us| > 0 ==> us[0] in us;
    var sel := Select(us);
    assert sel.Some? ==> exists k: nat :: LastBest(Usables(reply.body.images), k)
                                          && Usables(reply.body.images)[k].id == sel.value by {
      if sel.Some? {
        var k: nat :| LastBest(us, k) && us[k].id == sel.value;
        assert us == Usables(reply.body.images);
        assert LastBest(Usables(reply.body.images), k);
      }
    }
    Ok(sel)
  }
}

=== FILE: text.dfy ===
/** String helpers with the semantics of the JavaScript built-ins the script
    uses: `join`, `split` on one character, `trim`, `indexOf`, string
    `replace` and number-to-string conversion. */
module Text {
  import opened Common

  /** `parts.join(sep)`. */
  function Join(parts: seq<string>, sep: string): string
  {
    if |parts| == 0 then ""
    else if |parts| == 1 then parts[0]
    else parts[0] + sep + Join(parts[1..], sep)
  }

  /** Unfolds one step of `Join` when at least one part follows the first. */
  lemma JoinCons(x: string, rest: seq<string>, sep: string)
    requires |rest| >= 1
    ensures Join([x] + rest, sep) == x + sep + Join(rest, sep)
  {
    assert ([x] + rest)[1..] == rest;
  }

  /** `s.split(c)` for a one-character separator: the pieces between the
      separators, in order. There is always at least one piece. */
  function Split(s: string, c: char): (r: seq<string>)
    ensures |r| >= 1
    ensures forall i :: 0 <= i < |r| ==> c !in r[i]
    decreases |s|
  {
    if |s| == 0 then [""]
    else
      var rest := Split(s[1..], c);
      if s[0] == c then [""] + rest
      else [[s[0]] + rest[0]] + rest[1..]
  }

  /** Joining the pieces of a split with the separator gives back the string. */
  lemma {:induction false} JoinSplit(s: string, c: char)
    ensures Join(Split(s, c), [c]) == s
    decreases |s|
  {
    if |s| > 0 {
      var rest := Split(s[1..], c);
      JoinSplit(s[1..], c);
      assert s == [s[0]] + s[1..];
      if s[0] == c {
        JoinCons("", rest, [c]);
      } else if |rest| == 1 {
        assert Split(s, c) == [[s[0]] + rest[0]];
      } else {
        assert rest == [rest[0]] + rest[1..];
        JoinCons(rest[0], rest[1..], [c]);
        JoinCons([s[0]] + rest[0], rest[1..], [c]);
      }
    }
  }

  lemma {:induction false} SplitWithoutSeparator(p: string, c: char)
    requires c !in p
    ensures Split(p, c) == [p]
    decreases |p|
  {
    if |p| > 0 {
      SplitWithoutSeparator(p[1..], c);
      assert [p[0]] + p[1..] == p;
    }
  }

  lemma {:induction false} SplitAfterPiece(p: string, t: string, c: char)
    requires c !in p
    ensures Split(p + [c] + t, c) == [p] + Split(t, c)
    decreases |p|
  {
    var s := p + [c] + t;
    if |p| == 0 {
      assert s[1..] == t;
    } else {
      assert s[1..] == p[1..] + [c] + t;
      SplitAfterPiece(p[1..], t, c);
      assert [p[0]] + p[1..] == p;
    }
  }

  /** Splitting a join of separator-free pieces gives back the pieces. */
  lemma {:induction false} SplitJoin(parts: seq<string>, c: char)
    requires |parts| >= 1
    requires forall i :: 0 <= i < |parts| ==> c !in parts[i]
    ensures Split(Join(parts, [c]), c) == parts
    decreases |parts|
  {
    if |parts| == 1 {
      SplitWithoutSeparator(parts[0], c);
    } else {
      SplitJoin(parts[1..], c);
      SplitAfterPiece(parts[0], Join(parts[1..], [c]), c);
      assert parts == [parts[0]] + parts[1..];
    }
  }

  /** The characters `String.prototype.trim` removes: ECMAScript WhiteSpace
      (tab, vertical tab, form feed, space, no-break space, byte order mark and
      the space separators) and LineTerminator. */
  predicate IsSpace(ch: char) {
    || ch == '\t' || ch == '\n' || ch == '\U{000B}' || ch == '\U{000C}' || ch == '\r'
    || ch == ' ' || ch == '\U{00A0}' || ch == '\U{1680}'
    || ('\U{2000}' <= ch <= '\U{200A}')
    || ch == '\U{2028}' || ch == '\U{2029}' || ch == '\U{202F}' || ch == '\U{205F}'
    || ch == '\U{3000}' || ch == '\U{FEFF}'
  }

  /** Number of whitespace characters at the start of `s`. */
  function LeadingSpaces(s: string): (n: nat)
    ensures n <= |s|
    ensures forall i :: 0 <= i < n ==> IsSpace(s[i])
    ensures n < |s| ==> !IsSpace(s[n])
    decreases |s|
  {
    if |s| > 0 && IsSpace(s[0]) then 1 + LeadingSpaces(s[1..]) else 0
  }

  /** Number of whitespace characters at the end of `s`. */
  function TrailingSpaces(s: string): (n: nat)
    ensures n <= |s|
    ensures forall i :: |s| - n <= i < |s| ==> IsSpace(s[i])
    ensures n < |s| ==> !IsSpace(s[|s| - n - 1])
    decreases |s|
  {
    if |s| > 0 && IsSpace(s[|s| - 1]) then 1 + TrailingSpaces(s[..|s| - 1]) else 0
  }

  /** `r` is the factor of `s` starting at `a`, and everything of `s` around it
      is whitespace. */
  predicate TrimmedAt(s: string, r: string, a: nat) {
    && a + |r| <= |s|
    && r == s[a..a + |r|]
    && (forall i :: 0 <= i < a ==> IsSpace(s[i]))
    && (forall i :: a + |r| <= i < |s| ==> IsSpace(s[i]))
  }

  /** `s.trim()`: the factor of `s` that neither starts nor ends with
      whitespace, everything cut off being whitespace. */
  function Trim(s: string): (r: string)
    ensures |r| == 0 || (!IsSpace(r[0]) && !IsSpace(r[|r| - 1]))
    ensures exists a :: TrimmedAt(s, r, a)
  {
    var a := LeadingSpaces(s);
    if a == |s| then
      assert TrimmedAt(s, "", 0);
      ""
    else
      var t := TrailingSpaces(s);
      assert !IsSpace(s[a]);
      var r := s[a..|s| - t];
      assert TrimmedAt(s, r, a);
      r
  }

  /** Trimming is idempotent. */
  lemma TrimIdempotent(s: string)
    ensures Trim(Trim(s)) == Trim(s)
  {
    var r := Trim(s);
    if |r| > 0 {
      assert LeadingSpaces(r) == 0;
      assert TrailingSpaces(r) == 0;
      assert r[0..|r|] == r;
    }
  }

  /** `pat` occurs in `s` at index `i`. */
  predicate OccursAt(s: string, pat: string, i: nat) {
    i + |pat| <= |s| && s[i..i + |pat|] == pat
  }

  /** `s.indexOf(pat, from)`, with `None` for JavaScript's `-1`. */
  function IndexOfFrom(s: string, pat: string, from: nat): (r: Option<nat>)
    requires from <= |s|
    ensures r.Some? ==> from <= r.value && OccursAt(s, pat, r.value)
    ensures r.Some? ==> forall j :: from <= j < r.value ==> !OccursAt(s, pat, j)
    ensures r.None? ==> forall j :: from <= j <= |s| ==> !OccursAt(s, pat, j)
    decreases |s| - from
  {
    if OccursAt(s, pat, from) then Some(from)
    else if from == |s| then None
    else IndexOfFrom(s, pat, from + 1)
  }

  /** `s.indexOf(pat)`: the first occurrence. */
  function IndexOf(s: string, pat: string): (r: Option<nat>)
    ensures r.Some? ==> OccursAt(s, pat, r.value)
    ensures r.Some? ==> forall j :: 0 <= j < r.value ==> !OccursAt(s, pat, j)
    ensures r.None? ==> forall j :: 0 <= j <= |s| ==> !OccursAt(s, pat, j)
  {
    IndexOfFrom(s, pat, 0)
  }

  /** `i` is where `pat` first occurs in `s`. */
  predicate FirstOccurrence(s: string, pat: string, i: nat) {
    OccursAt(s, pat, i) && forall j: nat :: j < i ==> !OccursAt(s, pat, j)
  }

  /** `s.replace(pat, rep)` with a string pattern and a replacement without `$`
      patterns: the first occurrence of `pat` is replaced, nothing else. */
  function ReplaceFirst(s: string, pat: string, rep: string): (r: string)
    ensures (forall j: nat :: !OccursAt(s, pat, j)) ==> r == s
    ensures forall i: nat :: FirstOccurrence(s, pat, i) ==> r == s[..i] + rep + s[i + |pat|..]
  {
    match IndexOf(s, pat)
    case None => s
    case Some(i) =>
      s[..i] + rep + s[i + |pat|..]
  }

  /** A decimal digit character. */
  function Digit(d: nat): (ch: char)
    requires d < 10
    ensures '0' <= ch <= '9'
  {
    (48 + d) as char
  }

  /** `String(n)` for a non-negative integer: its decimal digits, without
      leading zeros. */
  function Decimal(n: nat): (r: string)
    ensures |r| >= 1
    ensures forall i :: 0 <= i < |r| ==> '0' <= r[i] <= '9'
    ensures |r| > 1 ==> r[0] != '0'
    decreases n
  {
    if n < 10 then [Digit(n)] else Decimal(n / 10) + [Digit(n % 10)]
  }

  /** Reads a string of decimal digits back as a number. */
  function ParseDecimal(s: string): nat
    decreases |s|
  {
    if |s| == 0 then 0
    else
      var d := s[|s| - 1] as int - 48;
      ParseDecimal(s[..|s| - 1]) * 10 + (if 0 <= d then d else 0)
  }

  /** Reading back the decimal text of `n` gives `n`. */
  lemma {:induction false} DecimalRoundTrip(n: nat)
    ensures ParseDecimal(Decimal(n)) == n
    decreases n
  {
    if n >= 10 {
      DecimalRoundTrip(n / 10);
      var r := Decimal(n);
      assert r[..|r| - 1] == Decimal(n / 10);
    }
  }

  /** `s.startsWith(p)`. */
  predicate StartsWith(s: string, p: string) {
    |p| <= |s| && s[..|p|] == p
  }

  /** `s.endsWith(p)`. */
  predicate EndsWith(s: string, p: string) {
    |p| <= |s| && s[|s| - |p|..] == p
  }
}

=== FILE: token.dfy ===
/** `getToken`: the CSRF token a manager sends with every fave and upvote
    request. A token is reused while it is a non-empty string, has served fewer
    than 500 reuses and is less than six minutes old; otherwise the site's
    front page is fetched and the token is read from its `csrf-token` meta
    element. */
module Token {
  import opened Common
  import opened Http

  const MaxReuses: nat := 500
  const MaxAgeMinutes: real := 6.0

  /** The manager's token record; a new manager holds `{content: null,
      counter: 0, createdAt: 0}`. Times are milliseconds since the epoch. */
  datatype Token = Token(content: Option<string>, counter: nat, createdAt: int)

  const Initial: Token := Token(None, 0, 0)

  /** `(Date.now() - createdAt) * 1e-3 / 60`: the token's age in minutes (the
      source's comment calls it hours, but the arithmetic gives minutes). */
  function AgeMinutes(t: Token, now: int): real {
    (now - t.createdAt) as real * 0.001 / 60.0
  }

  /** The reuse test of `getToken`. */
  predicate Reusable(t: Token, now: int) {
    Truthy(t.content) && t.counter < MaxReuses && AgeMinutes(t, now) < MaxAgeMinutes
  }

  /** The age test is a window of 360000 milliseconds after the token was
      fetched. */
  lemma ReuseWindow(t: Token, now: int)
    ensures AgeMinutes(t, now) < MaxAgeMinutes <==> now - t.createdAt < 360000
  {
  }

  /** `getToken` at time `now`. When the token is not reusable the front page
      is fetched: `page` is the `content` of its `csrf-token` meta element, or
      `None` when the page has none (which is also what a failed request
      yields), in which case reading it throws a TypeError and the token is
      left as it was; `fetchedAt` is the time the fetch completes. The result
      is the token string sent and the new token record. */
  function GetToken(t: Token, now: int, page: Option<string>, fetchedAt: int): (r: Result<(string, Token), Failure>)
    ensures Reusable(t, now) ==> r == Ok((t.content.value, t.(counter := t.counter + 1)))
    ensures !Reusable(t, now) ==> (r.Ok? <==> page.Some?)
    ensures !Reusable(t, now) && r.Ok? ==> r.value == (page.value, Token(page, 0, fetchedAt))
    ensures r.Err? ==> r.error == TypeError
    ensures r.Ok? ==> r.value.1.content == Some(r.value.0)
  {
    if Reusable(t, now) then
      Ok((t.content.value, t.(counter := t.counter + 1)))
    else
      match page
      case None => Err(TypeError)
      case Some(c) => Ok((c, Token(Some(c), 0, fetchedAt)))
  }

  /** A new manager has no token yet, so its first `getToken` fetches one. */
  lemma NewManagerFetchesToken(now: int, page: Option<string>, fetchedAt: int)
    ensures !Reusable(Initial, now)
    ensures GetToken(Initial, now, page, fetchedAt)
            == if page.Some? then Ok((page.value, Token(page, 0, fetchedAt))) else Err(TypeError)
  {
  }

  /** The counter never exceeds the reuse bound. */
  predicate Valid(t: Token) {
    t.counter <= MaxReuses
  }

  lemma GetTokenKeepsValid(t: Token, now: int, page: Option<string>, fetchedAt: int)
    requires Valid(t)
    requires GetToken(t, now, page, fetchedAt).Ok?
    ensures Valid(GetToken(t, now, page, fetchedAt).value.1)
  {
  }

  /** The number of consecutive calls, at the times `nows`, that reuse the
      token `t` before one has to fetch a new one; each of them sends `t`'s
      string. */
  function Reuses(t: Token, nows: seq<int>): (n: nat)
    requires Valid(t)
    ensures n <= |nows| && n <= MaxReuses - t.counter
    ensures forall i :: 0 <= i < n ==> ReusableAt(t, nows, i)
    ensures n < |nows| ==> !Reusable(t.(counter := t.counter + n), nows[n])
    decreases |nows|
  {
    if |nows| == 0 || !Reusable(t, nows[0]) then 0
    else
      var t' := t.(counter := t.counter + 1);
      var n := 1 + Reuses(t', nows[1..]);
      assert ReusableAt(t, nows, 0);
      assert forall i :: 1 <= i < n ==> ReusableAt(t', nows[1..], i - 1) && nows[1..][i - 1] == nows[i]
                                        && t'.(counter := t'.counter + (i - 1)) == t.(counter := t.counter + i);
      n
  }

  /** The `i`-th call of a run of reuses finds the token reusable, having
      already counted `i` reuses. */
  predicate ReusableAt(t: Token, nows: seq<int>, i: nat)
    requires i < |nows|
  {
    Reusable(t.(counter := t.counter + i), nows[i])
  }

  /** Once fetched, a token is sent by its fetch and by at most 500 further
      calls, all within six minutes of the fetch. */
  lemma {:induction false} FetchedTokenServesAtMost501(c: string, fetchedAt: int, nows: seq<int>)
    ensures Reuses(Token(Some(c), 0, fetchedAt), nows) <= MaxReuses
    ensures forall i :: 0 <= i < Reuses(Token(Some(c), 0, fetchedAt), nows) ==> nows[i] - fetchedAt < 360000
  {
    var t := Token(Some(c), 0, fetchedAt);
    forall i | 0 <= i < Reuses(t, nows)
      ensures nows[i] - fetchedAt < 360000
    {
      assert ReusableAt(t, nows, i);
      ReuseWindow(t.(counter := i), nows[i]);
    }
  }
}

=== FILE: urls.dfy ===
/** URL building: `makeAbsolute`, the download URL used for client-side
    hashing (with its vector-image rewrite) and `makeQueryString`. */
module Urls {
  import opened Common
  import opened Text

  /** The regular expression `^(?:https?:)?\/\/`: a protocol-relative or an
      explicit http(s) URL. */
  predicate IsAbsolute(path: string) {
    StartsWith(path, "//") || StartsWith(path, "http://") || StartsWith(path, "https://")
  }

  /** `makeAbsolute(path, host)`: absolute paths are kept, anything else is
      taken relative to `https://` and the host. */
  function MakeAbsolute(path: string, host: string): (r: string)
    ensures IsAbsolute(r)
    ensures IsAbsolute(path) ==> r == path
    ensures !IsAbsolute(path) ==>
              (StartsWith(r, "https://" + host) && EndsWith(r, path) && |r| == |"https://" + host| + |path|)
  {
    if IsAbsolute(path) then path
    else
      var r := "https://" + host + path;
      assert r[..8] == "https://";
      assert r[..|"https://" + host|] == "https://" + host;
      assert r[|r| - |path|..] == path;
      r
  }

  /** Making an already absolute URL absolute changes nothing, so
      `makeAbsolute` is idempotent. */
  lemma MakeAbsoluteIdempotent(path: string, host: string)
    ensures MakeAbsolute(MakeAbsolute(path, host), host) == MakeAbsolute(path, host)
  {
  }

  /** `\w`: an ASCII letter, digit or underscore. */
  predicate IsWordChar(ch: char) {
    ('a' <= ch <= 'z') || ('A' <= ch <= 'Z') || ('0' <= ch <= '9') || ch == '_'
  }

  /** The regular expression `\.\w+$` matches `s` at index `i`. */
  predicate ExtensionAt(s: string, i: nat) {
    && i + 1 < |s|
    && s[i] == '.'
    && forall j :: i < j < |s| ==> IsWordChar(s[j])
  }

  /** Number of word characters at the end of `s`. */
  function TrailingWordChars(s: string): (n: nat)
    ensures n <= |s|
    ensures forall j :: |s| - n <= j < |s| ==> IsWordChar(s[j])
    ensures n < |s| ==> !IsWordChar(s[|s| - n - 1])
    decreases |s|
  {
    if |s| > 0 && IsWordChar(s[|s| - 1]) then 1 + TrailingWordChars(s[..|s| - 1]) else 0
  }

  /** Where `\.\w+$` matches, if it does: the match is unique, because a dot is
      not a word character. */
  function ExtensionStart(s: string): (r: Option<nat>)
    ensures r.Some? ==> ExtensionAt(s, r.value)
    ensures forall i: nat :: ExtensionAt(s, i) ==> r == Some(i)
  {
    var n := TrailingWordChars(s);
    if 0 < n < |s| && s[|s| - n - 1] == '.' then Some(|s| - n - 1)
    else
      assert forall i: nat :: ExtensionAt(s, i) ==> false by {
        forall i: nat | ExtensionAt(s, i)
          ensures false
        {
          ExtensionIsTrailingRun(s, i);
        }
      }
      None
  }

  lemma ExtensionIsTrailingRun(s: string, i: nat)
    requires ExtensionAt(s, i)
    ensures TrailingWordChars(s) == |s| - i - 1
  {
    assert !IsWordChar(s[i]);
  }

  /** `s.replace(/\.\w+$/, '.svg')`. */
  function SvgExtension(s: string): (r: string)
    ensures (forall i: nat :: !ExtensionAt(s, i)) ==> r == s
    ensures forall i: nat :: ExtensionAt(s, i) ==> r == s[..i] + ".svg"
  {
    match ExtensionStart(s)
    case None => s
    case Some(i) => s[..i] + ".svg"
  }

  /** The URL `performClientSideHash` downloads: the file URL itself, except for
      vector images, whose first `/view/` becomes `/download/` and whose
      trailing extension then becomes `.svg` (`SvgDownloadUrl` states the
      rewrite). */
  function DownloadUrl(fileUrl: string, mime: string): (r: string)
    ensures mime != "image/svg+xml" ==> r == fileUrl
  {
    if mime != "image/svg+xml" then fileUrl
    else SvgExtension(ReplaceFirst(fileUrl, "/view/", "/download/"))
  }

  /** The vector-image download URL: the extension of the file URL rewritten
      at the first `/view/`, or of the file URL itself when it has none. Kept
      apart from `DownloadUrl` so that its quantifiers reach only the proofs
      that ask for them. */
  lemma SvgDownloadUrl(fileUrl: string)
    ensures forall i: nat :: FirstOccurrence(fileUrl, "/view/", i) ==>
              DownloadUrl(fileUrl, "image/svg+xml") == SvgExtension(fileUrl[..i] + "/download/" + fileUrl[i + 6..])
    ensures (forall i: nat :: !OccursAt(fileUrl, "/view/", i)) ==>
              DownloadUrl(fileUrl, "image/svg+xml") == SvgExtension(fileUrl)
  {
    var u := ReplaceFirst(fileUrl, "/view/", "/download/");
    assert DownloadUrl(fileUrl, "image/svg+xml") == SvgExtension(u);
    assert forall i: nat :: FirstOccurrence(fileUrl, "/view/", i) ==> u == fileUrl[..i] + "/download/" + fileUrl[i + 6..];
    assert (forall i: nat :: !OccursAt(fileUrl, "/view/", i)) ==> u == fileUrl;
  }

  /** A rewritten vector-image URL (the URL `DownloadUrl` produces when `/view/`
      first occurs at `i`) keeps everything before that `/view/` followed by
      `/download/`, and ends in `.svg` when the rewritten URL had an
      extension. */
  lemma SvgDownloadUrlShape(fileUrl: string, i: nat)
    requires FirstOccurrence(fileUrl, "/view/", i)
    ensures var u := fileUrl[..i] + "/download/" + fileUrl[i + 6..];
            && StartsWith(SvgExtension(u), fileUrl[..i] + "/download/")
            && ((exists k: nat :: ExtensionAt(u, k)) ==> EndsWith(SvgExtension(u), ".svg"))
  {
    var u := fileUrl[..i] + "/download/" + fileUrl[i + 6..];
    var r := SvgExtension(u);
    match ExtensionStart(u)
    case None =>
      assert r == u;
      assert u[..i + 10] == fileUrl[..i] + "/download/";
    case Some(k) =>
      assert r == u[..k] + ".svg";
      assert r[|r| - 4..] == ".svg";
      assert u[i + 9] == '/';
      assert !IsWordChar(u[i + 9]);
      assert k > i + 9;
      assert r[..i + 10] == u[..i + 10];
      assert u[..i + 10] == fileUrl[..i] + "/download/";
  }

  /** `makeQueryString(queries)` over the entries of the object, values already
      converted to strings: `?` then `key=value` entries joined by `&`. */
  function MakeQueryString(entries: seq<(string, string)>): (r: string)
    ensures |r| >= 1 && r[0] == '?'
  {
    "?" + Join(EntryTexts(entries), "&")
  }

  /** `arr.join('=')` for every entry. */
  function EntryTexts(entries: seq<(string, string)>): (r: seq<string>)
    ensures |r| == |entries|
    ensures forall i :: 0 <= i < |r| ==> r[i] == entries[i].0 + "=" + entries[i].1
  {
    seq(|entries|, i requires 0 <= i < |entries| => entries[i].0 + "=" + entries[i].1)
  }

  /** Reads one `key=value` entry back, splitting at the first `=`. */
  function ParseEntry(text: string): (string, string)
  {
    match IndexOf(text, "=")
    case None => (text, "")
    case Some(i) => (text[..i], text[i + 1..])
  }

  /** Reads a query string back into its entries. */
  function ParseQuery(q: string): Option<seq<(string, string)>>
  {
    if |q| == 0 || q[0] != '?' then None
    else if q == "?" then Some([])
    else
      var pieces := Split(q[1..], '&');
      Some(seq(|pieces|, i requires 0 <= i < |pieces| => ParseEntry(pieces[i])))
  }

  /** Keys without `=` or `&` and values without `&` are read back unchanged. */
  predicate PlainEntries(entries: seq<(string, string)>) {
    forall i :: 0 <= i < |entries| ==>
      '=' !in entries[i].0 && '&' !in entries[i].0 && '&' !in entries[i].1
  }

  lemma ParseEntryText(k: string, v: string)
    requires '=' !in k
    ensures ParseEntry(k + "=" + v) == (k, v)
  {
    var t := k + "=" + v;
    assert OccursAt(t, "=", |k|);
    forall j: nat | j < |k|
      ensures !OccursAt(t, "=", j)
    {
      assert t[j] == k[j];
    }
    assert t[..|k|] == k;
    assert t[|k| + 1..] == v;
  }

  /** `makeQueryString` is inverted by `ParseQuery` on plain entries. */
  lemma {:induction false} QueryStringRoundTrip(entries: seq<(string, string)>)
    requires PlainEntries(entries)
    ensures ParseQuery(MakeQueryString(entries)) == Some(entries)
  {
    var q := MakeQueryString(entries);
    var texts := EntryTexts(entries);
    assert q[1..] == Join(texts, "&");
    if |entries| == 0 {
      assert q == "?";
    } else {
      forall i | 0 <= i < |texts|
        ensures '&' !in texts[i]
      {
        assert texts[i] == entries[i].0 + "=" + entries[i].1;
      }
      SplitJoin(texts, '&');
      var pieces := Split(q[1..], '&');
      assert pieces == texts;
      assert q != "?" by {
        assert |texts[0]| >= 1;
        JoinLength(texts, "&");
      }
      forall i | 0 <= i < |entries|
        ensures ParseEntry(pieces[i]) == entries[i]
      {
        ParseEntryText(entries[i].0, entries[i].1);
      }
      var parsed := seq(|pieces|, i requires 0 <= i < |pieces| => ParseEntry(pieces[i]));
      assert ParseQuery(q) == Some(parsed);
      assert parsed == entries;
    }
  }

  lemma {:induction false} JoinLength(parts: seq<string>, sep: string)
    requires |parts| >= 1
    ensures |Join(parts, sep)| >= |parts[0]|
  {
  }
}
